=== FILE: README.md ===
# Path rewriter for a GitHub Pages deployment, modelled in Dafny

`fix-github-paths.js` prepares a static site for a GitHub Pages project site.
It reads the repository name from `package.json`. It lists the working
directory and rewrites root-relative paths (`/…`) into relative ones (`./…`)
in every markup, stylesheet and script file, then in `manifest.json`. Each
text rewrite is a global `String.prototype.replace` with a fixed regular
expression; the manifest is parsed and updated as data.

This project models that script as pure functions over `seq<char>`:

- `Rules` hand-codes each regular expression as a matcher. A matcher is
  a trigger character, then a "reach" (a fixed text, a quote and a slash, or
  a white-space run), then the optional `(?!http)` look-ahead.
- `Replace.ReplaceAll` is the left-to-right, non-overlapping global
  replacement. `Replace.ReplaceAllScan` is the same thing as the index loop
  the JavaScript engine runs.
- `Replace` and `RuleFacts` prove, once for all rules, that a replacement
  leaves no match of its own pattern. In a stylesheet, in a script and in the
  two markup attribute passes, they also prove that a later replacement does
  not create a match of an earlier pattern in the same file. Each such fact
  reduces to a small per-rule-pair check. In markup the canonical-URL
  replacement, which inserts the repository name, sits between the attribute
  passes and the registration pass. For a name without `"`, the canonical-URL
  stage and the registration pass are proved to create no `href="/` and no
  `src="/`.
- `Canonical` models the one rewrite whose output depends on what it matched:
  the production origin in `content=`/`href=` attributes becomes the project
  site. Its inserted URL has one `"`, followed by `https`, and `href="/` and
  `src="/` both need a `"` followed by `/`.
- `Rewriters` holds the three per-file rewriters. `Manifest` models the
  manifest step over a JSON datatype. `Discovery` models start-up: the
  repository name and the file buckets. `Engine` models the whole run over an
  in-memory directory.

## Model

| member | source | states |
|---|---|---|
| Replace.ReplaceAll | fix-github-paths.js:35-83 | the global `replace` every fixed pattern goes through: a match at the scan position is replaced and the scan resumes after it, otherwise one character is copied; it has no contract of its own, and its partners are `Replace.ReplaceAllScan` (the engine's index loop computes it), `Replace.NoResidual` and `Replace.KeepsClean` (nothing is left to rewrite) and `Replace.CleanUnchanged` (clean text is kept) |
| Replace.ReplaceAllScan | fix-github-paths.js:35 | the engine's index scan (jump past a match, else copy one character) computes exactly the suffix-recursive global replacement used everywhere else |
| Rules.MatchLen | fix-github-paths.js:35-83 | a match starts with a trigger character and never runs past the text |
| Rules.ReachMatch | fix-github-paths.js:56-62 | a trigger, a reach over the rest of the candidate, and no `http` after it (for a guarded rule) make a match of exactly that length |
| Rules.ReachPrefixOnly | fix-github-paths.js:59-62 | whether a pattern's body matches depends only on the characters it covers, including the greedy `\s+` run |
| Replace.CleanUnchanged | fix-github-paths.js:35 | text with no match is returned unchanged |
| Replace.NoResidual | fix-github-paths.js:35-36 | after a replacement whose output restarts with the trigger and never begins a new match, no match of the pattern remains anywhere |
| Replace.KeepsClean | fix-github-paths.js:56-62 | a later replacement that avoids an earlier pattern cannot reintroduce a match of it |
| Replace.Idempotent | fix-github-paths.js:35-36 | such a replacement applied twice equals applying it once |
| Replace.TwoPasses | fix-github-paths.js:35-36 | two successive replacements leave no match of either pattern |
| Replace.ThreePasses | fix-github-paths.js:56-62 | three successive replacements leave no match of any of the three patterns |
| Replace.KeepsAbsoluteUrl | fix-github-paths.js:56 | where `http` follows the slash the `(?!http)` guard refuses the match, and the trigger, the pattern body and `http` are copied unchanged |
| Replace.SkipTriggerFree | fix-github-paths.js:35 | text containing no trigger character is copied verbatim |
| Replace.PrefixBack | fix-github-paths.js:56-62 | a trigger-free prefix of the output was already a prefix of the input |
| Replace.MatchedPrefix | fix-github-paths.js:35 | a match at the start is replaced by the replacement text and the scan resumes right after it |
| RuleFacts.QuotedCleanCoversCalls | fix-github-paths.js:76-84 | once no quoted root-relative path is left, no `fetch(` or registration call on one is left either |
| RuleFacts.HtmlAttributePasses | fix-github-paths.js:35-36 | after the `href` and `src` passes, neither `href="/` nor `src="/` occurs |
| RuleFacts.CssPasses | fix-github-paths.js:56-62 | after the three stylesheet passes, none of the three patterns matches anywhere |
| RuleFacts.JsCallPasses | fix-github-paths.js:76-79 | after the two call passes, neither call pattern matches anywhere |
| RuleFacts.JsQuotedPass | fix-github-paths.js:82-84 | after the quoted-path pass, no quoted root-relative path (outside an `http` URL) is left, and so no call on one |
| RuleFacts.HtmlRegistrationPass | fix-github-paths.js:42 | after the registration pass, no single-quoted registration of `/service-worker.js` is left |
| RuleFacts.SrcRootAvoidsHrefRoot | fix-github-paths.js:35-36 | the `src` rewrite never creates or completes an `href="/` |
| RuleFacts.CssFontSrcAvoidsCssImport | fix-github-paths.js:59-62 | the font-source rewrite never creates or completes an `@import` match |
| RuleFacts.JsSwRegisterAvoidsJsFetch | fix-github-paths.js:76-79 | the registration rewrite never creates or completes a `fetch(` match |
| Canonical.Retarget | fix-github-paths.js:39 | the canonical-URL replacement with the captured attribute name put back by `$1`; it has no contract of its own, and its partners are `Canonical.RetargetRewrites` (each production-origin attribute is moved to the project site) and `Canonical.RetargetUnchanged` (text without one is kept) |
| Canonical.OriginAttr | fix-github-paths.js:39 | the captured group is `content` or `href`, and the text starts with it followed by `="https://nzbi.com/` |
| Canonical.RetargetRewrites | fix-github-paths.js:39 | `content="https://nzbi.com/` or `href="https://nzbi.com/` becomes the same attribute on `https://yourusername.github.io/<name>/`, with the repository name inserted verbatim |
| Canonical.RetargetUnchanged | fix-github-paths.js:39 | text without the production origin passes through unchanged |
| Canonical.RetargetPrefixBack | fix-github-paths.js:39 | a prefix of the output that cannot run into an inserted `content=` or `href=` was already in the input |
| Canonical.InsertedInert | fix-github-paths.js:39 | for a name without `"`, no tail of the inserted project-site URL starts a match of a fixed word whose quote must be followed by a slash, such as `href="/` or `src="/`, whatever follows it |
| Canonical.RetargetKeepsClean | fix-github-paths.js:39 | for a name without `"`, the canonical-URL stage keeps text free of such a match |
| RuleFacts.QuoteSlashInert | fix-github-paths.js:35-36 | text in which no `"` is followed by `/`, ending in a character that cannot start or continue the word up to its quote, holds no start of `href="/` or `src="/`, whatever follows it |
| RuleFacts.SwRegisterHtmlAvoidsHrefRoot | fix-github-paths.js:42 | the registration rewrite never creates or completes an `href="/` |
| RuleFacts.SwRegisterHtmlAvoidsSrcRoot | fix-github-paths.js:42 | the registration rewrite never creates or completes a `src="/` |
| Rewriters.FixHtmlAttributes | fix-github-paths.js:35-36 | no `href="/` and no `src="/` remains |
| Rewriters.FixHtml | fix-github-paths.js:29-47 | the markup rewriter leaves no single-quoted root registration of `/service-worker.js`; for a repository name without `"` it also leaves no `href="/` and no `src="/` |
| Rewriters.LaterHtmlStagesKeepAttributes | fix-github-paths.js:35-42 | for a name without `"`, the canonical-URL and registration stages keep markup free of `href="/` and `src="/` |
| Rewriters.FixHtmlRetargets | fix-github-paths.js:29-47 | markup whose attributes are already relative, and whose canonical-URL output holds no single-quoted root registration, comes out exactly as the canonical-URL stage of :39 leaves it, so every production-origin URL is moved to the project site |
| Rewriters.HtmlUnchanged | fix-github-paths.js:29-47 | markup with no root-relative `href` or `src`, no production-origin URL and no single-quoted root registration comes back unchanged, whatever the repository name |
| Rewriters.HtmlAttributesUnchanged | fix-github-paths.js:35-36 | markup with no root-relative `href`/`src` keeps its attributes |
| Rewriters.HtmlAttributesIdempotent | fix-github-paths.js:35-36 | the attribute passes applied twice equal one application |
| Rewriters.HrefRootRewritten | fix-github-paths.js:35 | `href="/path` becomes `href="./path`, for every following text |
| Rewriters.SrcRootRewritten | fix-github-paths.js:36 | `src="/path` becomes `src="./path`, for every following text |
| Rewriters.HrefProtocolRelativeRewritten | fix-github-paths.js:35 | there is no guard for protocol-relative URLs: `href="//host` becomes `href=".//host` |
| Rewriters.SrcProtocolRelativeRewritten | fix-github-paths.js:36 | likewise `src="//host` becomes `src=".//host` |
| Rewriters.HtmlRegistrationIdempotent | fix-github-paths.js:42 | the registration replacement applied to its own output changes nothing |
| Rewriters.HtmlRegistrationRewritten | fix-github-paths.js:42 | the single-quoted registration of `/service-worker.js` becomes one of `./service-worker.js` |
| Rewriters.HtmlDoubleQuotedRegistrationKept | fix-github-paths.js:42 | a double-quoted registration in markup is left as it is |
| Rewriters.FixCss | fix-github-paths.js:50-67 | the stylesheet rewriter leaves no rewritable `url(/`, `@import` or font `src:` |
| Rewriters.CssUnchanged | fix-github-paths.js:50-67 | a stylesheet with nothing to rewrite is unchanged |
| Rewriters.CssIdempotent | fix-github-paths.js:50-67 | the stylesheet rewriter applied twice equals one application |
| Rewriters.CssUrlRewritten | fix-github-paths.js:56 | `url(/path` becomes `url(./path` unless `http` follows the slash |
| Rewriters.CssUrlKeepsAbsolute | fix-github-paths.js:56 | `url(/http…` is kept |
| Rewriters.CssUrlNeedsBareSlash | fix-github-paths.js:56 | a quoted `url('/…')` is not a match of the `url(` rule |
| Rewriters.CssUrlHttpKept | fix-github-paths.js:56 | an absolute `url(http…` is not a match and is copied unchanged |
| Rewriters.CssImportNormalised | fix-github-paths.js:59 | `@import`, any non-empty white-space run, either quote and `/` become `@import './` |
| Rewriters.CssFontSrcNormalised | fix-github-paths.js:62 | `src:`, any non-empty white-space run, `url(`, either quote and `/` become `src: url('./` |
| Rewriters.CssFontSrcNeedsSpace | fix-github-paths.js:62 | `src:url(` with no white space between is not matched |
| Rewriters.FixJsCalls | fix-github-paths.js:76-79 | no `fetch(` or registration call on a quoted root-relative path remains |
| Rewriters.FixJs | fix-github-paths.js:70-89 | the script rewriter leaves no call to rewrite, and in `service-worker.js` no quoted root-relative path |
| Rewriters.JsUnchanged | fix-github-paths.js:70-89 | a script with nothing to rewrite is unchanged |
| Rewriters.JsIdempotent | fix-github-paths.js:70-89 | the script rewriter applied twice equals one application |
| Rewriters.JsFetchNormalised | fix-github-paths.js:76 | `fetch(` with either quote and `/` becomes `fetch('./` |
| Rewriters.JsSwRegisterNormalised | fix-github-paths.js:79 | the registration call with either quote and `/` gets `'./` |
| Rewriters.JsQuotedRewritten | fix-github-paths.js:83 | in the service worker, a quoted `/` path becomes `'./`, whichever quote it had |
| Rewriters.JsQuotedGatedOnName | fix-github-paths.js:82 | in any other script, a quoted `/` path that is not a call argument is kept |
| Manifest.FixPath | fix-github-paths.js:101-102 | a truthy non-string throws; a root-relative string gains a leading `.`; anything else is kept; no root-relative value remains |
| Manifest.FixField | fix-github-paths.js:101-103 | only the named property can change, the key set is kept, and an absent property stays absent |
| Manifest.FixIcon | fix-github-paths.js:108-110 | a `null` icon throws; a non-object icon is kept; an object icon throws exactly when its `src` step does, and otherwise is the icon with its `src` fixed (`/icon.png` becomes `./icon.png`), every other property and the key set kept |
| Manifest.FixIcons | fix-github-paths.js:106-112 | all icons succeed iff each does; the result is pointwise the fixed icons, same length and order; a failure is the first failing icon's error |
| Manifest.FixManifestDoc | fix-github-paths.js:97-112 | `null` throws; non-objects are kept; an object succeeds exactly when the `start_url` step succeeds and, if `icons` is an array, every icon's step does; on success `start_url` holds the path step's result, the keys and every property but `start_url` and `icons` are kept, an `icons` value that is not an array is kept, and nothing root-relative is left in either |
| Manifest.FixManifest | fix-github-paths.js:93 | a missing manifest stays missing and nothing throws |
| Manifest.IconsKeptInOrder | fix-github-paths.js:106-112 | the icon array keeps its length, and icon `i` of the output is icon `i` of the input, fixed |
| Manifest.StartUrlRewritten | fix-github-paths.js:101-103 | `start_url` `/path` becomes `./path` and nothing else changes when there is no icon array |
| Manifest.ManifestIdempotent | fix-github-paths.js:97-112 | the manifest step applied to its own output changes nothing |
| Manifest.ManifestUnchangedWhenClean | fix-github-paths.js:97-112 | a manifest with nothing root-relative that throws nothing is kept as it is |
| Discovery.ResolveName | fix-github-paths.js:12-20 | the name is `package.json`'s truthy `name` when it can be read, else `nzbiv2` |
| Discovery.Bucket | fix-github-paths.js:23-25 | a name is in a bucket iff it is listed and passes that bucket's filter |
| Discovery.BucketAppend | fix-github-paths.js:23-25 | filtering distributes over concatenation, so listing order is kept |
| Discovery.BucketDistinct | fix-github-paths.js:23-25 | a bucket of a listing without repeats has no repeats |
| Discovery.Discover | fix-github-paths.js:23-25 | a name is a markup, stylesheet or script name iff it is listed and ends with `.html`, `.css`, or `.js` without containing `fix-github-paths.js` |
| Discovery.SelfExcluded | fix-github-paths.js:25 | any name containing `fix-github-paths.js` is never a script to rewrite |
| Discovery.KindsDisjoint | fix-github-paths.js:23-25 | no name passes two of the three filters |
| Discovery.BucketsDisjoint | fix-github-paths.js:23-25 | the three buckets are pairwise disjoint |
| Discovery.ManifestInNoBucket | fix-github-paths.js:26 | `manifest.json` passes none of the filters |
| Engine.FixEach | fix-github-paths.js:120-122 | keys are kept; unlisted files are unchanged; the pass completes iff every name is readable, else it stops at the first unreadable one; when it completes, each distinct listed file holds its rewrite |
| Engine.FixEachStopsAt | fix-github-paths.js:120-122 | a pass that throws on the first unreadable name stops there, every name before it keeps its rewrite, and every readable name after it is untouched |
| Engine.Run | fix-github-paths.js:120-123 | keys are kept; files the script does not rewrite are unchanged; the run completes iff every rewritable listed name is readable and the manifest step does not throw; the manifest is the fixed one when it completes and untouched otherwise |
| Engine.RunRewritesEachFile | fix-github-paths.js:120-122 | a completed run leaves each listed file with its own kind's rewrite, applied once |
| Engine.StopKeepsEarlierWrites | fix-github-paths.js:120-123 | an unreadable stylesheet ends the run, and markup files already rewritten stay rewritten; scripts and the manifest are untouched |

## Behaviour kept as written

- No `//` guard in markup (fix-github-paths.js:35-36): `href="//x` becomes
  `href=".//x`, and `src="//x` becomes `src=".//x`.
- No quote preservation (fix-github-paths.js:59-83): every rewritten quote
  becomes `'`, so `@import "/a.css"` becomes `@import './a.css"`.
- No per-file isolation (fix-github-paths.js:120-123): an exception in one
  file ends the script, and the remaining files and the manifest are not
  processed.

## Left out

- File-system and console I/O: the directory is a map from names to file texts.
  A listed name that is not in the map stands for an entry `readFileSync`
  cannot read, such as a directory named `x.html`. `console.log` output is not
  modelled.
- The three `readdirSync('.')` calls are taken to return the same listing.
- `JSON.parse` and `JSON.stringify(…, null, 2)`: the manifest is a parsed JSON
  value, and its text, key order, number formatting and indentation are not
  modelled. Malformed JSON in `manifest.json` is outside the model. A
  `package.json` that is missing or malformed is represented as `None`.
- Engine.Run: the manifest is carried as its parsed value beside the text
  files, so the `manifest.json` entry in the file map itself is not rewritten.
- Discovery.ResolveName: the result is the `name` value itself. How JavaScript
  turns a non-string truthy `name` into text inside the template literal is
  not modelled, and `Engine.Run` takes the repository name as a string.
- Canonical.RetargetRewrites: the repository name is inserted verbatim. The
  `$&`, `$1`, `` $` `` and `$'` patterns that `String.prototype.replace` would
  expand inside a name containing `$` are not modelled.
- Rewriters.FixHtml: the absence of `href="/` and `src="/` is stated only for
  a repository name without `"`. The canonical-URL stage inserts the name
  verbatim, and a name such as `x" href="/y` puts `href="/` back.
- Rewriters.FixHtml: idempotence is not claimed. A name containing `"` breaks
  it, as above. For other names it would also need a proof that neither the
  canonical-URL stage nor the registration stage creates a production-origin
  URL, and that proof is not part of this model.
- A name repeated in the listing: Engine.FixEach and Engine.Run state per-file
  results only for listings without repeats, as a directory listing is.
- The regular-expression engine in general: each pattern is hand-coded as a
  matcher with the same language and the same leftmost, non-overlapping
  semantics. The `\s` class is the set of JavaScript white-space and
  line-terminator characters.
- The project's widget scripts and other files are not part of this model.

=== FILE: canonical.dfy ===
/** The one HTML rewrite whose replacement depends on what it matched: canonical
    and Open Graph URLs on the production origin are moved to the project site,
    keeping the captured attribute name. */
module Canonical {
  import opened Wrappers
  import opened Text
  import opened Rules
  import opened Replace
  import opened RuleFacts

  const NzbiOrigin := "=\"https://nzbi.com/"
  const PagesSite := "https://yourusername.github.io/"
  const PagesOrigin := "=\"" + PagesSite

  /** The group `(content|href)` captured by `(content|href)="https:\/\/nzbi\.com\/`
      at the start of `t`, if the pattern matches there. */
  function OriginAttr(t: string): (r: Option<string>)
    ensures r.Some? ==> (r.value == "content" || r.value == "href") && StartsWith(t, r.value + NzbiOrigin)
  {
    if StartsWith(t, "content" + NzbiOrigin) then Some("content")
    else if StartsWith(t, "href" + NzbiOrigin) then Some("href")
    else None
  }

  /** `s.replace(/(content|href)="https:\/\/nzbi\.com\//g,
      `$1="https://yourusername.github.io/${repoName}/`)`, the repository name
      inserted verbatim. */
  function Retarget(repoName: string, s: string): string
    decreases |s|
  {
    if |s| == 0 then []
    else match OriginAttr(s)
      case Some(attr) => attr + PagesOrigin + repoName + "/" + Retarget(repoName, s[|attr + NzbiOrigin|..])
      case None => [s[0]] + Retarget(repoName, s[1..])
  }

  /** Both captured attribute names are recognised at the start of the text. */
  lemma OriginAttrOf(attr: string, rest: string)
    requires attr == "content" || attr == "href"
    ensures OriginAttr(attr + NzbiOrigin + rest) == Some(attr)
  {
    var t := attr + NzbiOrigin + rest;
    StartsWithAppend(attr + NzbiOrigin, rest, attr + NzbiOrigin);
    if attr == "href" {
      MismatchNotPrefix(t, "content" + NzbiOrigin, 0);
    }
  }

  /** The canonical-URL rewrite: the production origin after `content=` or
      `href=` becomes the project site, and the scan resumes after it. */
  lemma RetargetRewrites(repoName: string, attr: string, rest: string)
    requires attr == "content" || attr == "href"
    ensures Retarget(repoName, attr + NzbiOrigin + rest)
         == attr + PagesOrigin + repoName + "/" + Retarget(repoName, rest)
  {
    var t := attr + NzbiOrigin + rest;
    OriginAttrOf(attr, rest);
    assert t[|attr + NzbiOrigin|..] == rest;
  }

  /** Text with no production-origin URL passes through unchanged. */
  lemma {:induction false} RetargetUnchanged(repoName: string, s: string)
    requires forall i :: 0 <= i < |s| ==> OriginAttr(s[i..]).None?
    ensures Retarget(repoName, s) == s
    decreases |s|
  {
    if |s| > 0 {
      assert s[0..] == s;
      forall i | 0 <= i < |s[1..]| ensures OriginAttr(s[1..][i..]).None? {
        assert s[1..][i..] == s[i + 1..];
      }
      RetargetUnchanged(repoName, s[1..]);
      assert [s[0]] + s[1..] == s;
    }
  }

  /** `v` cannot run into the start of an inserted `content=` or `href=`: every
      `c` in it is followed, inside `v`, by something other than `o`, and every
      `h` by something other than `r`. */
  predicate NoAttributeStart(v: string) {
    forall j {:trigger v[j]} :: 0 <= j < |v| ==>
      && (v[j] == 'c' ==> j + 1 < |v| && v[j + 1] != 'o')
      && (v[j] == 'h' ==> j + 1 < |v| && v[j + 1] != 'r')
  }

  lemma NoAttributeStartTail(v: string)
    requires |v| > 0 && NoAttributeStart(v)
    ensures NoAttributeStart(v[1..])
  {
    forall j | 0 <= j < |v[1..]|
      ensures && (v[1..][j] == 'c' ==> j + 1 < |v[1..]| && v[1..][j + 1] != 'o')
              && (v[1..][j] == 'h' ==> j + 1 < |v[1..]| && v[1..][j + 1] != 'r')
    {
      var i := j + 1;
      assert v[1..][j] == v[i];
      assert (v[i] == 'c' ==> i + 1 < |v| && v[i + 1] != 'o') && (v[i] == 'h' ==> i + 1 < |v| && v[i + 1] != 'r');
      if i + 1 < |v| {
        assert v[1..][j + 1] == v[i + 1];
      }
    }
  }

  /** A prefix of the output that cannot run into an inserted attribute was
      already in the input. */
  lemma {:induction false} RetargetPrefixBack(repoName: string, s: string, v: string)
    requires NoAttributeStart(v)
    ensures StartsWith(Retarget(repoName, s), v) ==> StartsWith(s, v)
    decreases |v|
  {
    if |v| > 0 && |s| > 0 {
      var r := Retarget(repoName, s);
      match OriginAttr(s)
      case Some(attr) =>
        assert r[0] == attr[0] && r[1] == attr[1];
        if v[0] == r[0] {
          assert (v[0] == 'c' ==> 1 < |v| && v[1] != 'o') && (v[0] == 'h' ==> 1 < |v| && v[1] != 'r');
          MismatchNotPrefix(r, v, 1);
        } else {
          MismatchNotPrefix(r, v, 0);
        }
      case None =>
        var rest := Retarget(repoName, s[1..]);
        assert r == [s[0]] + rest;
        NoAttributeStartTail(v);
        RetargetPrefixBack(repoName, s[1..], v[1..]);
        if StartsWith(r, v) {
          assert r[..|v|][0] == s[0];
          ConsStartsWith(s[0], rest, v);
          ConsPrefix(s, v, []);
        }
    }
  }

  /** The rules the canonical stage can neither create nor complete a match of,
      for a repository name without `"`: an unguarded fixed word that cannot run
      into an inserted attribute, whose quote at `k` must be followed by a slash,
      and whose trigger and text up to the quote lack the slash that ends the
      inserted URL. */
  predicate QuoteSlashWord(p: Rule, k: nat) {
    && p.trigger.Char? && p.trigger.c != '/' && !p.guarded
    && p.reach.Exact? && k + 1 < |p.reach.word|
    && p.reach.word[k] == '"' && p.reach.word[k + 1] == '/'
    && '/' !in p.reach.word[..k + 1]
    && NoAttributeStart(p.reach.word)
  }

  lemma PagesSiteHasNoQuote()
    ensures '"' !in PagesSite && PagesSite[0] == 'h'
  {
  }

  /** The one quote of the inserted URL is followed by `https`, not by a slash. */
  lemma InsertedQuote(attr: string, repoName: string)
    requires '"' !in repoName
    requires attr == "content" || attr == "href"
    ensures NoQuoteSlash(attr + PagesOrigin + repoName + "/")
  {
    PagesSiteHasNoQuote();
    NoQuoteSlashQuoteFree(PagesSite);
    assert NoQuoteSlash("=\"");
    NoQuoteSlashConcat("=\"", PagesSite);
    NoQuoteSlashQuoteFree(attr);
    NoQuoteSlashConcat(attr, PagesOrigin);
    NoQuoteSlashQuoteFree(repoName);
    assert (attr + PagesOrigin)[|attr + PagesOrigin| - 1] == '/';
    NoQuoteSlashConcat(attr + PagesOrigin, repoName);
    NoQuoteSlashQuoteFree("/");
    NoQuoteSlashConcat(attr + PagesOrigin + repoName, "/");
  }

  /** The inserted project-site URL has no tail that starts a match. */
  lemma InsertedInert(p: Rule, k: nat, attr: string, repoName: string)
    requires QuoteSlashWord(p, k) && '"' !in repoName
    requires attr == "content" || attr == "href"
    ensures Inert(p, attr + PagesOrigin + repoName + "/")
  {
    var u := attr + PagesOrigin + repoName + "/";
    InsertedQuote(attr, repoName);
    assert u[|u| - 1] == '/';
    QuoteSlashInert(p, k, u);
  }

  /** A copied character does not start a match when it did not in the input. */
  lemma RetargetHead(p: Rule, k: nat, repoName: string, s: string)
    requires QuoteSlashWord(p, k)
    requires |s| > 0 && OriginAttr(s).None? && MatchLen(p, s).None?
    ensures MatchLen(p, [s[0]] + Retarget(repoName, s[1..])).None?
  {
    var r := [s[0]] + Retarget(repoName, s[1..]);
    assert r[0] == s[0] && r[1..] == Retarget(repoName, s[1..]);
    RetargetPrefixBack(repoName, s[1..], p.reach.word);
  }

  /** For a repository name without `"`, the canonical stage keeps a text free of
      matches of such a rule. */
  lemma {:induction false} RetargetKeepsClean(p: Rule, k: nat, repoName: string, s: string)
    requires QuoteSlashWord(p, k) && '"' !in repoName
    requires Clean(p, s)
    ensures Clean(p, Retarget(repoName, s))
    decreases |s|
  {
    if |s| > 0 {
      var r := Retarget(repoName, s);
      match OriginAttr(s)
      case Some(attr) =>
        var n := |attr + NzbiOrigin|;
        var inserted := attr + PagesOrigin + repoName + "/";
        var tail := Retarget(repoName, s[n..]);
        CleanSuffix(p, s, n);
        RetargetKeepsClean(p, k, repoName, s[n..]);
        assert r == inserted + tail;
        InsertedInert(p, k, attr, repoName);
        CleanAfterInert(p, inserted, tail);
      case None =>
        var tail := Retarget(repoName, s[1..]);
        CleanSuffix(p, s, 1);
        RetargetKeepsClean(p, k, repoName, s[1..]);
        assert r == [s[0]] + tail;
        assert s[0..] == s;
        RetargetHead(p, k, repoName, s);
        CleanCons(p, s[0], tail);
    }
  }
}

=== FILE: discovery.dfy ===
/** Start-up of fix-github-paths.js: the repository name read from
    `package.json`, and the three buckets of file names taken from the
    directory listing. */
module Discovery {
  import opened Wrappers
  import opened Text
  import opened Manifest

  const DefaultRepoName := "nzbiv2"
  const SelfName := "fix-github-paths.js"
  const ManifestName := "manifest.json"

  /** The value `repoName` ends up holding. `None` stands for a `package.json`
      that is missing or is not JSON, where the `try` block throws. A `null`
      document throws on `.name` as well; any other value without a truthy
      `name` falls back through `||`. */
  function ResolveName(pkg: Option<Json>): (r: Json)
    ensures Truthy(r)
    ensures HasTruthyName(pkg) ==> r == pkg.value.fields["name"]
    ensures !HasTruthyName(pkg) ==> r == JStr(DefaultRepoName)
  {
    if HasTruthyName(pkg) then pkg.value.fields["name"] else JStr(DefaultRepoName)
  }

  /** `packageJson.name` is read without throwing and is truthy. */
  predicate HasTruthyName(pkg: Option<Json>) {
    pkg.Some? && pkg.value.JObj? && "name" in pkg.value.fields && Truthy(pkg.value.fields["name"])
  }

  /** The three kinds of file the script rewrites. */
  datatype Kind = Markup | Stylesheet | Script

  /** The filters of the three `readdirSync('.').filter(...)` calls. */
  predicate HasKind(kind: Kind, name: string) {
    match kind
    case Markup => EndsWith(name, ".html")
    case Stylesheet => EndsWith(name, ".css")
    case Script => EndsWith(name, ".js") && !Contains(name, SelfName)
  }

  /** One filtered listing. */
  function Bucket(kind: Kind, names: seq<string>): (r: seq<string>)
    ensures |r| <= |names|
    ensures forall n :: n in r <==> n in names && HasKind(kind, n)
  {
    if |names| == 0 then []
    else if HasKind(kind, names[0]) then [names[0]] + Bucket(kind, names[1..])
    else Bucket(kind, names[1..])
  }

  datatype Buckets = Buckets(markup: seq<string>, stylesheets: seq<string>, scripts: seq<string>)

  /** The three filtered listings, each taken from the same directory listing. */
  function Discover(listing: seq<string>): (r: Buckets)
    ensures forall n :: n in r.markup <==> n in listing && HasKind(Markup, n)
    ensures forall n :: n in r.stylesheets <==> n in listing && HasKind(Stylesheet, n)
    ensures forall n :: n in r.scripts <==> n in listing && HasKind(Script, n)
  {
    Buckets(Bucket(Markup, listing), Bucket(Stylesheet, listing), Bucket(Script, listing))
  }

  /** Filtering keeps the listing order: it distributes over concatenation. */
  lemma {:induction false} BucketAppend(kind: Kind, a: seq<string>, b: seq<string>)
    ensures Bucket(kind, a + b) == Bucket(kind, a) + Bucket(kind, b)
    decreases |a|
  {
    if |a| == 0 {
      assert a + b == b;
    } else {
      assert (a + b)[0] == a[0] && (a + b)[1..] == a[1..] + b;
      BucketAppend(kind, a[1..], b);
    }
  }

  /** No name occurs twice, as in a directory listing. */
  predicate Distinct(names: seq<string>) {
    forall i, j :: 0 <= i < j < |names| ==> names[i] != names[j]
  }

  /** The first name of a distinct listing is not among the rest, which are distinct too. */
  lemma DistinctTail(names: seq<string>)
    requires |names| > 0
    ensures Distinct(names) ==> names[0] !in names[1..] && Distinct(names[1..])
  {
    if Distinct(names) {
      forall i | 0 <= i < |names[1..]| ensures names[1..][i] != names[0] {
        assert names[1..][i] == names[i + 1];
      }
      forall i, j | 0 <= i < j < |names[1..]| ensures names[1..][i] != names[1..][j] {
        assert names[1..][i] == names[i + 1] && names[1..][j] == names[j + 1];
      }
    }
  }

  /** Putting a name in front of distinct names that do not contain it keeps them distinct. */
  lemma DistinctCons(name: string, rest: seq<string>)
    requires name !in rest && Distinct(rest)
    ensures Distinct([name] + rest)
  {
    var r := [name] + rest;
    forall i, j | 0 <= i < j < |r| ensures r[i] != r[j] {
      if i == 0 {
        assert r[j] == rest[j - 1];
      } else {
        assert r[i] == rest[i - 1] && r[j] == rest[j - 1];
      }
    }
  }

  /** A filtered listing of distinct names has distinct names. */
  lemma {:induction false} BucketDistinct(kind: Kind, names: seq<string>)
    requires Distinct(names)
    ensures Distinct(Bucket(kind, names))
    decreases |names|
  {
    if |names| > 0 {
      DistinctTail(names);
      BucketDistinct(kind, names[1..]);
      if HasKind(kind, names[0]) {
        DistinctCons(names[0], Bucket(kind, names[1..]));
      }
    }
  }

  /** The script itself, and any name containing its file name, is never rewritten. */
  lemma SelfExcluded(listing: seq<string>, name: string)
    requires Contains(name, SelfName)
    ensures name !in Discover(listing).scripts
  {
  }

  /** A name whose `j`-th character from the end differs from the suffix's does not end with it. */
  lemma NotSuffix(name: string, suffix: string, j: nat)
    requires j < |suffix| && j < |name| && name[|name| - 1 - j] != suffix[|suffix| - 1 - j]
    ensures !EndsWith(name, suffix)
  {
    if |suffix| <= |name| {
      assert name[|name| - |suffix|..][|suffix| - 1 - j] == name[|name| - 1 - j];
    }
  }

  /** The `j`-th character from the end of a name is that of any suffix it ends with. */
  lemma SuffixChar(name: string, suffix: string, j: nat)
    requires EndsWith(name, suffix) && j < |suffix|
    ensures name[|name| - 1 - j] == suffix[|suffix| - 1 - j]
  {
    assert name[|name| - |suffix|..][|suffix| - 1 - j] == name[|name| - 1 - j];
  }

  /** No name is in two kinds. */
  lemma KindsDisjoint(name: string)
    ensures HasKind(Markup, name) ==> !HasKind(Stylesheet, name) && !HasKind(Script, name)
    ensures HasKind(Stylesheet, name) ==> !HasKind(Script, name)
  {
    if EndsWith(name, ".html") {
      SuffixChar(name, ".html", 0);
      NotSuffix(name, ".css", 0);
      NotSuffix(name, ".js", 0);
    }
    if EndsWith(name, ".css") {
      SuffixChar(name, ".css", 1);
      NotSuffix(name, ".js", 1);
    }
  }

  /** The three buckets are pairwise disjoint, so no file is rewritten by two rewriters. */
  lemma BucketsDisjoint(listing: seq<string>)
    ensures var b := Discover(listing);
            && (forall n :: n in b.markup ==> n !in b.stylesheets && n !in b.scripts)
            && (forall n :: n in b.stylesheets ==> n !in b.scripts)
  {
    forall n: string {
      KindsDisjoint(n);
    }
  }

  /** `manifest.json` is handled by its own step only. */
  lemma ManifestInNoBucket()
    ensures forall kind :: !HasKind(kind, ManifestName)
  {
    NotSuffix(ManifestName, ".html", 0);
    NotSuffix(ManifestName, ".css", 0);
    NotSuffix(ManifestName, ".js", 0);
  }
}

=== FILE: engine.dfy ===
/** The top level of fix-github-paths.js: every markup file, then every
    stylesheet, then every script, then the manifest, over an in-memory
    directory. */
module Engine {
  import opened Wrappers
  import opened Manifest
  import opened Discovery
  import opened Rewriters

  /** Why a run ended before its last step: an uncaught exception. */
  datatype Stop =
      /** `readFileSync` threw on a listed name that is not a readable file */
    | Unreadable(name: string)
      /** the manifest step threw */
    | ManifestThrew(error: TypeError)

  /** The directory after a run: the text files, the parsed manifest, and the
      exception that ended the run early, if any. */
  datatype Outcome = Outcome(files: map<string, string>, manifest: Option<Json>, stop: Option<Stop>)

  /** The rewriter for one kind of file. */
  function FixFile(kind: Kind, name: string, text: string, repoName: string): string {
    match kind
    case Markup => FixHtml(text, repoName)
    case Stylesheet => FixCss(text)
    case Script => FixJs(name, text)
  }

  /** The files after one `forEach`, and the name it threw on, if any. */
  datatype Pass = Pass(files: map<string, string>, stopped: Option<string>)

  /** `names.forEach(fixPathsIn…File)`: each file is read, rewritten and written
      back before the next is read; a name that cannot be read throws, and the
      files already written stay written. */
  function FixEach(kind: Kind, names: seq<string>, files: map<string, string>, repoName: string): (r: Pass)
    ensures r.files.Keys == files.Keys
    ensures forall k :: k in files && k !in names ==> r.files[k] == files[k]
    ensures r.stopped.None? <==> forall n :: n in names ==> n in files
    ensures r.stopped.Some? ==> exists i :: 0 <= i < |names| && names[i] == r.stopped.value && names[i] !in files
                                         && forall j :: 0 <= j < i ==> names[j] in files
    ensures r.stopped.None? && Distinct(names) ==>
              forall n :: n in names ==> r.files[n] == FixFile(kind, n, files[n], repoName)
    decreases |names|
  {
    if |names| == 0 then Pass(files, None)
    else if names[0] !in files then Pass(files, Some(names[0]))
    else
      var files' := files[names[0] := FixFile(kind, names[0], files[names[0]], repoName)];
      var rest := FixEach(kind, names[1..], files', repoName);
      DistinctTail(names);
      StoppedShift(names, files, files', rest.stopped);
      rest
  }

  /** Where the pass over the rest of `names` stopped, the pass over all of them
      stopped too, every name before it having been read. */
  lemma StoppedShift(names: seq<string>, files: map<string, string>, files': map<string, string>,
                     stopped: Option<string>)
    requires |names| > 0 && names[0] in files && files'.Keys == files.Keys
    requires stopped.Some? ==> exists i :: 0 <= i < |names[1..]| && names[1..][i] == stopped.value
                                        && names[1..][i] !in files'
                                        && forall j :: 0 <= j < i ==> names[1..][j] in files'
    ensures stopped.Some? ==> exists i :: 0 <= i < |names| && names[i] == stopped.value && names[i] !in files
                                        && forall j :: 0 <= j < i ==> names[j] in files
  {
    if stopped.Some? {
      var i :| 0 <= i < |names[1..]| && names[1..][i] == stopped.value && names[1..][i] !in files'
               && forall j :: 0 <= j < i ==> names[1..][j] in files';
      assert names[i + 1] == names[1..][i];
      forall j | 0 <= j < i + 1 ensures names[j] in files {
        if j > 0 {
          assert names[j] == names[1..][j - 1];
        }
      }
    }
  }

  /** A pass that throws on `names[i]`, the first name that cannot be read:
      every name before it keeps its rewrite and every readable name after it
      is untouched, since `forEach` has no per-file isolation. */
  lemma {:induction false} FixEachStopsAt(kind: Kind, names: seq<string>, files: map<string, string>,
                                          repoName: string, i: nat)
    requires Distinct(names) && i < |names| && names[i] !in files
    requires forall j :: 0 <= j < i ==> names[j] in files
    ensures var r := FixEach(kind, names, files, repoName);
            && r.stopped == Some(names[i])
            && (forall j :: 0 <= j < i ==> r.files[names[j]] == FixFile(kind, names[j], files[names[j]], repoName))
            && (forall j :: i < j < |names| && names[j] in files ==> r.files[names[j]] == files[names[j]])
    decreases |names|
  {
    if i > 0 {
      var files' := files[names[0] := FixFile(kind, names[0], files[names[0]], repoName)];
      var tail := names[1..];
      DistinctTail(names);
      forall j | 0 <= j < i - 1 ensures tail[j] in files' {
        assert tail[j] == names[j + 1];
      }
      FixEachStopsAt(kind, tail, files', repoName, i - 1);
      var r := FixEach(kind, names, files, repoName);
      assert r == FixEach(kind, tail, files', repoName);
      forall j | 0 <= j < i ensures r.files[names[j]] == FixFile(kind, names[j], files[names[j]], repoName) {
        if j > 0 {
          assert names[j] == tail[j - 1] && names[j] != names[0];
        }
      }
      forall j | i < j < |names| && names[j] in files ensures r.files[names[j]] == files[names[j]] {
        assert names[j] == tail[j - 1] && names[j] != names[0];
      }
    }
  }

  /** A name the script rewrites. */
  predicate Rewritable(name: string) {
    HasKind(Markup, name) || HasKind(Stylesheet, name) || HasKind(Script, name)
  }

  /** The whole script after start-up: the three `forEach` passes and the
      manifest step, in that order, each one run only if the previous one did
      not throw. */
  function Run(listing: seq<string>, files: map<string, string>, repoName: string, manifest: Option<Json>): (r: Outcome)
    ensures r.files.Keys == files.Keys
    ensures forall k :: k in files && !Rewritable(k) ==> r.files[k] == files[k]
    ensures r.stop.None? <==> (forall n :: n in listing && Rewritable(n) ==> n in files) && FixManifest(manifest).Success?
    ensures r.stop.None? ==> r.manifest == FixManifest(manifest).value
    ensures r.stop.Some? ==> r.manifest == manifest
  {
    var b := Discover(listing);
    var html := FixEach(Markup, b.markup, files, repoName);
    if html.stopped.Some? then Outcome(html.files, manifest, Some(Unreadable(html.stopped.value)))
    else
      var css := FixEach(Stylesheet, b.stylesheets, html.files, repoName);
      if css.stopped.Some? then Outcome(css.files, manifest, Some(Unreadable(css.stopped.value)))
      else
        var js := FixEach(Script, b.scripts, css.files, repoName);
        if js.stopped.Some? then Outcome(js.files, manifest, Some(Unreadable(js.stopped.value)))
        else
          match FixManifest(manifest)
          case Success(m) => Outcome(js.files, m, None)
          case Failure(e) => Outcome(js.files, manifest, Some(ManifestThrew(e)))
  }

  /** A run that completes rewrites every listed file of each kind exactly once,
      with that kind's rewriter. */
  lemma RunRewritesEachFile(listing: seq<string>, files: map<string, string>, repoName: string,
                            manifest: Option<Json>, kind: Kind, name: string)
    requires Distinct(listing) && Run(listing, files, repoName, manifest).stop.None?
    requires name in listing && name in files && HasKind(kind, name)
    ensures Run(listing, files, repoName, manifest).files[name] == FixFile(kind, name, files[name], repoName)
  {
    var b := Discover(listing);
    var html := FixEach(Markup, b.markup, files, repoName);
    var css := FixEach(Stylesheet, b.stylesheets, html.files, repoName);
    var js := FixEach(Script, b.scripts, css.files, repoName);
    assert html.stopped.None? && css.stopped.None? && js.stopped.None?;
    assert Run(listing, files, repoName, manifest).files == js.files;
    KindsDisjoint(name);
    match kind {
      case Markup =>
        BucketDistinct(Markup, listing);
        assert html.files[name] == FixFile(kind, name, files[name], repoName);
      case Stylesheet =>
        BucketDistinct(Stylesheet, listing);
        assert css.files[name] == FixFile(kind, name, html.files[name], repoName);
      case Script =>
        BucketDistinct(Script, listing);
        assert js.files[name] == FixFile(kind, name, css.files[name], repoName);
    }
  }

  /** There is no per-file isolation: when a stylesheet cannot be read, the
      markup files already written keep their rewrite, and neither the scripts
      nor the manifest are touched. */
  lemma StopKeepsEarlierWrites(listing: seq<string>, files: map<string, string>, repoName: string,
                               manifest: Option<Json>, bad: string)
    requires Distinct(listing)
    requires forall n :: n in listing && HasKind(Markup, n) ==> n in files
    requires bad in listing && HasKind(Stylesheet, bad) && bad !in files
    ensures var r := Run(listing, files, repoName, manifest);
            && r.stop.Some? && r.stop.value.Unreadable? && r.manifest == manifest
            && (forall n :: n in listing && n in files && HasKind(Markup, n) ==> r.files[n] == FixHtml(files[n], repoName))
            && (forall n :: n in files && HasKind(Script, n) ==> r.files[n] == files[n])
  {
    var b := Discover(listing);
    var html := FixEach(Markup, b.markup, files, repoName);
    BucketDistinct(Markup, listing);
    assert html.stopped.None?;
    var css := FixEach(Stylesheet, b.stylesheets, html.files, repoName);
    assert bad in b.stylesheets;
    assert css.stopped.Some?;
    assert Run(listing, files, repoName, manifest) == Outcome(css.files, manifest, Some(Unreadable(css.stopped.value)));
    BucketsDisjoint(listing);
    forall n | n in files && HasKind(Script, n) ensures css.files[n] == files[n] {
      KindsDisjoint(n);
    }
  }
}

=== FILE: manifest.dfy ===
/** The web-app manifest step of fix-github-paths.js: `start_url` and every
    icon's `src` lose their leading `/` in favour of `./`. The manifest is the
    parsed JSON value; its text form is not modelled. */
module Manifest {
  import opened Wrappers
  import opened Text

  /** A value produced by `JSON.parse`. An object is a map: key order and
      duplicate keys do not reach the model. */
  datatype Json =
    | JNull
    | JBool(b: bool)
    | JNum(n: real)
    | JStr(str: string)
    | JArr(items: seq<Json>)
    | JObj(fields: map<string, Json>)

  /** JavaScript truthiness of a parsed JSON value (JSON has no NaN). */
  predicate Truthy(v: Json) {
    match v
    case JNull => false
    case JBool(b) => b
    case JNum(n) => n != 0.0
    case JStr(s) => |s| > 0
    case _ => true
  }

  /** The `TypeError`s the manifest step can throw; each one ends the script
      before the manifest is written back. */
  datatype TypeError =
      /** reading property `key` of `null` */
    | PropertyOfNull(key: string)
      /** calling `startsWith` on the truthy non-string value of property `key` */
    | StartsWithNotFunction(key: string)

  /** A string value that is a root-relative path. */
  predicate RootRelative(v: Json) {
    v.JStr? && StartsWith(v.str, "/")
  }

  /** `if (x && x.startsWith('/')) x = '.' + x` for the value `v` of property `key`. */
  function FixPath(key: string, v: Json): (r: Result<Json, TypeError>)
    ensures r.Failure? <==> Truthy(v) && !v.JStr?
    ensures r.Failure? ==> r.error == StartsWithNotFunction(key)
    ensures r.Success? ==> !RootRelative(r.value)
    ensures r.Success? && RootRelative(v) ==> r.value == JStr("." + v.str)
    ensures r.Success? && !RootRelative(v) ==> r.value == v
  {
    if !Truthy(v) then Success(v)
    else if !v.JStr? then Failure(StartsWithNotFunction(key))
    else if StartsWith(v.str, "/") then Success(JStr("." + v.str))
    else Success(v)
  }

  /** The same step on property `key` of an object; an absent property reads
      as `undefined` and is left absent. */
  function FixField(key: string, m: map<string, Json>): (r: Result<map<string, Json>, TypeError>)
    ensures r.Failure? <==> key in m && FixPath(key, m[key]).Failure?
    ensures r.Success? ==> r.value.Keys == m.Keys
    ensures r.Success? ==> forall k :: k in m && k != key ==> r.value[k] == m[k]
    ensures r.Success? && key in m ==> FixPath(key, m[key]) == Success(r.value[key])
  {
    if key !in m then Success(m)
    else match FixPath(key, m[key])
      case Success(v) => Success(m[key := v])
      case Failure(e) => Failure(e)
  }

  /** The callback of `manifest.icons.forEach`: `icon.src` is read, which
      throws on `null`, yields `undefined` on other non-objects, and is fixed
      on an object. */
  function FixIcon(icon: Json): (r: Result<Json, TypeError>)
    ensures icon.JNull? ==> r == Failure(PropertyOfNull("src"))
    ensures !icon.JNull? && !icon.JObj? ==> r == Success(icon)
    ensures icon.JObj? && r.Success? ==>
              r.value.JObj? && r.value.fields.Keys == icon.fields.Keys
              && (forall k :: k in icon.fields && k != "src" ==> r.value.fields[k] == icon.fields[k])
    ensures icon.JObj? ==> (r.Success? <==> FixField("src", icon.fields).Success?)
    ensures icon.JObj? && r.Success? ==> r.value == JObj(FixField("src", icon.fields).value)
    ensures r.Success? ==> IconClean(r.value)
  {
    match icon
    case JNull => Failure(PropertyOfNull("src"))
    case JObj(m) =>
      (match FixField("src", m)
       case Success(m') => Success(JObj(m'))
       case Failure(e) => Failure(e))
    case _ => Success(icon)
  }

  /** No root-relative `src` on an icon object. */
  predicate IconClean(icon: Json) {
    icon.JObj? && "src" in icon.fields ==> !RootRelative(icon.fields["src"])
  }

  /** `forEach` over the icons: each icon is fixed in order and the first
      `TypeError` ends the loop. */
  function FixIcons(icons: seq<Json>): (r: Result<seq<Json>, TypeError>)
    ensures r.Success? <==> forall i :: 0 <= i < |icons| ==> FixIcon(icons[i]).Success?
    ensures r.Success? ==> |r.value| == |icons|
    ensures r.Success? ==> forall i :: 0 <= i < |icons| ==> FixIcon(icons[i]) == Success(r.value[i])
    ensures r.Failure? ==> exists i :: 0 <= i < |icons| && FixIcon(icons[i]) == Failure(r.error)
                                    && forall j :: 0 <= j < i ==> FixIcon(icons[j]).Success?
  {
    if |icons| == 0 then Success([])
    else match FixIcon(icons[0])
      case Failure(e) => Failure(e)
      case Success(first) =>
        match FixIcons(icons[1..])
        case Failure(e) => Failure(e)
        case Success(rest) => Success([first] + rest)
  }

  /** A manifest with nothing root-relative left in the two places the step
      looks at. */
  predicate ManifestClean(doc: Json) {
    doc.JObj? ==>
      && ("start_url" in doc.fields ==> !RootRelative(doc.fields["start_url"]))
      && ("icons" in doc.fields && doc.fields["icons"].JArr? ==>
            forall i :: 0 <= i < |doc.fields["icons"].items| ==> IconClean(doc.fields["icons"].items[i]))
  }

  /** The body of `fixPathsInManifest` between `JSON.parse` and `JSON.stringify`. */
  function FixManifestDoc(doc: Json): (r: Result<Json, TypeError>)
    ensures doc.JNull? ==> r == Failure(PropertyOfNull("start_url"))
    ensures !doc.JNull? && !doc.JObj? ==> r == Success(doc)
    ensures doc.JObj? && r.Success? ==>
              r.value.JObj? && r.value.fields.Keys == doc.fields.Keys
              && forall k :: k in doc.fields && k != "start_url" && k != "icons" ==>
                   r.value.fields[k] == doc.fields[k]
    ensures doc.JObj? && r.Success? && "icons" in doc.fields && !doc.fields["icons"].JArr? ==>
              r.value.fields["icons"] == doc.fields["icons"]
    ensures doc.JObj? ==>
              (r.Success? <==> (FixField("start_url", doc.fields).Success?
                                && (("icons" in doc.fields && doc.fields["icons"].JArr?) ==>
                                      FixIcons(doc.fields["icons"].items).Success?)))
    ensures doc.JObj? && r.Success? && "start_url" in doc.fields ==>
              FixPath("start_url", doc.fields["start_url"]) == Success(r.value.fields["start_url"])
    ensures r.Success? ==> ManifestClean(r.value)
  {
    match doc
    case JNull => Failure(PropertyOfNull("start_url"))
    case JObj(m) =>
      (match FixField("start_url", m)
       case Failure(e) => Failure(e)
       case Success(m') =>
         if "icons" in m' && m'["icons"].JArr? then
           match FixIcons(m'["icons"].items)
           case Failure(e) => Failure(e)
           case Success(icons) => Success(JObj(m'["icons" := JArr(icons)]))
         else Success(JObj(m')))
    case _ => Success(doc)
  }

  /** `fixPathsInManifest`: `None` stands for a missing `manifest.json`, which
      is left missing. */
  function FixManifest(manifest: Option<Json>): (r: Result<Option<Json>, TypeError>)
    ensures manifest.None? ==> r == Success(None)
    ensures manifest.Some? ==> (r.Success? <==> FixManifestDoc(manifest.value).Success?)
    ensures manifest.Some? && r.Success? ==> r.value == Some(FixManifestDoc(manifest.value).value)
  {
    match manifest
    case None => Success(None)
    case Some(doc) =>
      match FixManifestDoc(doc)
      case Success(d) => Success(Some(d))
      case Failure(e) => Failure(e)
  }

  /** The icon array keeps its length and order: icon `i` of the result is icon
      `i` of the input, fixed. */
  lemma IconsKeptInOrder(doc: Json)
    requires doc.JObj? && FixManifestDoc(doc).Success?
    requires "icons" in doc.fields && doc.fields["icons"].JArr?
    ensures var out := FixManifestDoc(doc).value.fields["icons"];
            && out.JArr? && |out.items| == |doc.fields["icons"].items|
            && forall i :: 0 <= i < |out.items| ==> FixIcon(doc.fields["icons"].items[i]) == Success(out.items[i])
  {
    var m' := FixField("start_url", doc.fields).value;
    assert m'["icons"] == doc.fields["icons"];
  }

  /** A root-relative `start_url` gains a leading `.`; nothing else changes
      when there is no icon array. */
  lemma StartUrlRewritten(m: map<string, Json>, path: string)
    requires "start_url" in m && m["start_url"] == JStr("/" + path)
    requires !("icons" in m && m["icons"].JArr?)
    ensures FixManifestDoc(JObj(m)) == Success(JObj(m["start_url" := JStr("./" + path)]))
  {
    assert StartsWith("/" + path, "/");
    assert "." + ("/" + path) == "./" + path;
  }

  /** A fixed value is fixed again to itself. */
  lemma PathStable(key: string, v: Json)
    requires FixPath(key, v).Success?
    ensures FixPath(key, FixPath(key, v).value) == FixPath(key, v)
  {
  }

  lemma IconStable(icon: Json)
    requires FixIcon(icon).Success?
    ensures FixIcon(FixIcon(icon).value) == FixIcon(icon)
  {
    if icon.JObj? {
      var m' := FixField("src", icon.fields).value;
      if "src" in icon.fields {
        PathStable("src", icon.fields["src"]);
        assert m'["src" := m'["src"]] == m';
      }
    }
  }

  lemma IconsStable(icons: seq<Json>)
    requires FixIcons(icons).Success?
    ensures FixIcons(FixIcons(icons).value) == FixIcons(icons)
  {
    var out := FixIcons(icons).value;
    forall i | 0 <= i < |out| ensures FixIcon(out[i]) == Success(out[i]) {
      IconStable(icons[i]);
    }
    var again := FixIcons(out).value;
    assert |again| == |out|;
    assert forall i :: 0 <= i < |out| ==> again[i] == out[i];
  }

  /** Running the manifest step on its own output changes nothing. */
  lemma ManifestIdempotent(doc: Json)
    requires FixManifestDoc(doc).Success?
    ensures FixManifestDoc(FixManifestDoc(doc).value) == FixManifestDoc(doc)
  {
    if doc.JObj? {
      var out := FixManifestDoc(doc).value.fields;
      var m' := FixField("start_url", doc.fields).value;
      if "start_url" in doc.fields {
        PathStable("start_url", doc.fields["start_url"]);
      }
      var m'' := FixField("start_url", out).value;
      assert m'' == out;
      if "icons" in m' && m'["icons"].JArr? {
        IconsStable(m'["icons"].items);
        assert out["icons" := out["icons"]] == out;
      }
    }
  }

  /** A manifest whose `start_url` and icon sources are already relative, and
      which throws nothing, is left as it is. */
  lemma ManifestUnchangedWhenClean(doc: Json)
    requires ManifestClean(doc) && FixManifestDoc(doc).Success?
    ensures FixManifestDoc(doc) == Success(doc)
  {
    if doc.JObj? {
      var m' := FixField("start_url", doc.fields).value;
      assert m' == doc.fields;
      if "icons" in m' && m'["icons"].JArr? {
        var items := m'["icons"].items;
        var out := FixIcons(items).value;
        forall i | 0 <= i < |items| ensures out[i] == items[i] {
          IconUnchangedWhenClean(items[i]);
        }
        assert out == items;
        assert m'["icons" := JArr(out)] == m';
      }
    }
  }

  lemma IconUnchangedWhenClean(icon: Json)
    requires IconClean(icon) && FixIcon(icon).Success?
    ensures FixIcon(icon) == Success(icon)
  {
    if icon.JObj? && "src" in icon.fields {
      assert icon.fields["src" := icon.fields["src"]] == icon.fields;
    }
  }
}

=== FILE: replace.dfy ===
/** JavaScript's `String.prototype.replace` with a global regular expression:
    the text is scanned left to right, each match is replaced, and scanning
    resumes after it, so matches never overlap. */
module Replace {
  import opened Wrappers
  import opened Text
  import opened Rules

  /** No position of `s` starts a match of `rule`. */
  predicate Clean(rule: Rule, s: string) {
    forall i :: 0 <= i < |s| ==> MatchLen(rule, s[i..]).None?
  }

  lemma CleanSuffix(rule: Rule, s: string, k: nat)
    requires k <= |s|
    ensures Clean(rule, s) ==> Clean(rule, s[k..])
  {
    if Clean(rule, s) {
      forall i | 0 <= i < |s[k..]| ensures MatchLen(rule, s[k..][i..]).None? {
        assert s[k..][i..] == s[k + i..];
      }
    }
  }

  /** `s.replace(/pattern/g, replacement)` for the pattern and replacement of `rule`.
      Text without a match passes through unchanged. */
  function ReplaceAll(rule: Rule, s: string): string
    decreases |s|
  {
    if |s| == 0 then []
    else match MatchLen(rule, s)
      case Some(n) => rule.replacement + ReplaceAll(rule, s[n..])
      case None => [s[0]] + ReplaceAll(rule, s[1..])
  }

  /** Text without a match passes through unchanged. */
  lemma {:induction false} CleanUnchanged(rule: Rule, s: string)
    requires Clean(rule, s)
    ensures ReplaceAll(rule, s) == s
    decreases |s|
  {
    if |s| > 0 {
      assert s[0..] == s;
      CleanSuffix(rule, s, 1);
      CleanUnchanged(rule, s[1..]);
      assert [s[0]] + s[1..] == s;
    }
  }

  /** A match at `i`: its replacement is the next piece of output. */
  lemma ScanMatched(rule: Rule, s: string, i: nat, r: string, i': nat, r': string)
    requires i < |s| && MatchLen(rule, s[i..]).Some? && i' == i + MatchLen(rule, s[i..]).value
    requires r + ReplaceAll(rule, s[i..]) == ReplaceAll(rule, s)
    requires r' == r + rule.replacement
    ensures i' <= |s| && r' + ReplaceAll(rule, s[i'..]) == ReplaceAll(rule, s)
  {
    MatchedAt(rule, s, i, i');
    ScanRegroup(r, rule.replacement, ReplaceAll(rule, s[i'..]), ReplaceAll(rule, s[i..]), ReplaceAll(rule, s), r');
  }

  lemma MatchedAt(rule: Rule, s: string, i: nat, i': nat)
    requires i < |s| && MatchLen(rule, s[i..]).Some? && i' == i + MatchLen(rule, s[i..]).value
    ensures i' <= |s| && ReplaceAll(rule, s[i..]) == rule.replacement + ReplaceAll(rule, s[i'..])
  {
    assert s[i..][i' - i..] == s[i'..];
  }

  /** The bookkeeping of one scan step: emitting `piece` in front of what is
      still to come keeps the total. */
  lemma ScanRegroup(r: string, piece: string, later: string, now: string, total: string, r': string)
    requires now == piece + later && r + now == total && r' == r + piece
    ensures r' + later == total
  {
  }

  /** No match at `i`: the character there is the next piece of output. */
  lemma ScanUnmatched(rule: Rule, s: string, i: nat, r: string, i': nat, r': string)
    requires i < |s| && MatchLen(rule, s[i..]).None? && i' == i + 1
    requires r + ReplaceAll(rule, s[i..]) == ReplaceAll(rule, s)
    requires r' == r + [s[i]]
    ensures i' <= |s| && r' + ReplaceAll(rule, s[i'..]) == ReplaceAll(rule, s)
  {
    assert s[i..][1..] == s[i + 1..];
    ScanRegroup(r, [s[i]], ReplaceAll(rule, s[i + 1..]), ReplaceAll(rule, s[i..]), ReplaceAll(rule, s), r');
  }

  /** The scan as the JavaScript engine runs it: an index that either jumps past
      a match or moves one character on. */
  method ReplaceAllScan(rule: Rule, s: string) returns (r: string)
    ensures r == ReplaceAll(rule, s)
  {
    r := [];
    var i := 0;
    assert s[0..] == s;
    while i < |s|
      invariant 0 <= i <= |s|
      invariant r + ReplaceAll(rule, s[i..]) == ReplaceAll(rule, s)
    {
      var m := MatchLen(rule, s[i..]);
      var r', i';
      if m.Some? {
        r', i' := r + rule.replacement, i + m.value;
        ScanMatched(rule, s, i, r, i', r');
      } else {
        r', i' := r + [s[i]], i + 1;
        ScanUnmatched(rule, s, i, r, i', r');
      }
      r, i := r', i';
    }
    assert s[i..] == [];
  }

  /** Two passes, each avoiding itself and the second avoiding the first,
      leave nothing for either to rewrite. */
  lemma TwoPasses(p: Rule, q: Rule, s: string)
    requires Avoids(p, p) && Avoids(q, q) && Avoids(q, p)
    ensures Clean(p, ReplaceAll(q, ReplaceAll(p, s)))
    ensures Clean(q, ReplaceAll(q, ReplaceAll(p, s)))
  {
    NoResidual(p, s);
    KeepsClean(p, q, ReplaceAll(p, s));
    NoResidual(q, ReplaceAll(p, s));
  }

  /** The same for three passes, each later one avoiding every earlier one. */
  lemma ThreePasses(p: Rule, q: Rule, u: Rule, s: string)
    requires Avoids(p, p) && Avoids(q, q) && Avoids(u, u)
    requires Avoids(q, p) && Avoids(u, p) && Avoids(u, q)
    ensures Clean(p, ReplaceAll(u, ReplaceAll(q, ReplaceAll(p, s))))
    ensures Clean(q, ReplaceAll(u, ReplaceAll(q, ReplaceAll(p, s))))
    ensures Clean(u, ReplaceAll(u, ReplaceAll(q, ReplaceAll(p, s))))
  {
    var t := ReplaceAll(q, ReplaceAll(p, s));
    TwoPasses(p, q, s);
    KeepsClean(p, u, t);
    KeepsClean(q, u, t);
    NoResidual(u, t);
  }

  /** A match of exactly `m` at the start: `m` is replaced and the scan resumes after it. */
  lemma MatchedPrefix(rule: Rule, m: string, rest: string)
    requires MatchLen(rule, m + rest) == Some(|m|)
    ensures ReplaceAll(rule, m + rest) == rule.replacement + ReplaceAll(rule, rest)
  {
    assert (m + rest)[|m|..] == rest;
  }

  /** Text without trigger characters passes through unchanged, whatever follows it. */
  lemma {:induction false} SkipTriggerFree(rule: Rule, v: string, rest: string)
    requires forall j :: 0 <= j < |v| ==> !IsTrigger(rule, v[j])
    ensures ReplaceAll(rule, v + rest) == v + ReplaceAll(rule, rest)
    decreases |v|
  {
    if |v| == 0 {
      assert v + rest == rest;
    } else {
      var t := v + rest;
      assert t[0] == v[0] && t[1..] == v[1..] + rest;
      CopiedStep(rule, t);
      SkipTriggerFree(rule, v[1..], rest);
      HeadJoin(v, ReplaceAll(rule, rest));
    }
  }

  /** A character that is not a trigger is copied and the scan moves on. */
  lemma CopiedStep(rule: Rule, t: string)
    requires |t| > 0 && !IsTrigger(rule, t[0])
    ensures ReplaceAll(rule, t) == [t[0]] + ReplaceAll(rule, t[1..])
  {
  }

  lemma HeadJoin(v: string, x: string)
    requires |v| > 0
    ensures [v[0]] + (v[1..] + x) == v + x
  {
    assert [v[0]] + v[1..] == v;
  }

  /** An output that starts with a non-trigger character did not start with a replacement. */
  lemma CopiedHead(rule: Rule, t: string)
    requires RestartsWithTrigger(rule)
    requires |ReplaceAll(rule, t)| > 0 && !IsTrigger(rule, ReplaceAll(rule, t)[0])
    ensures |t| > 0 && MatchLen(rule, t).None?
    ensures ReplaceAll(rule, t) == [t[0]] + ReplaceAll(rule, t[1..])
  {
  }

  /** Sequence bookkeeping for one step of `PrefixBack`. */
  lemma ConsPrefix(t: string, v: string, x: string)
    requires 0 < |v| <= |t| && t[0] == v[0]
    requires t[1..][..|v| - 1] == v[1..]
    ensures StartsWith(t, v)
    ensures [t[0]] + (v[1..] + x) == v + x
    ensures t[1..][|v| - 1..] == t[|v|..]
  {
    assert t[..|v|] == [t[0]] + t[1..][..|v| - 1];
    assert [v[0]] + v[1..] == v;
  }

  /** The first step of `PrefixBack`: a non-trigger first character was copied. */
  lemma PrefixHead(rule: Rule, t: string, v: string)
    requires RestartsWithTrigger(rule)
    requires 0 < |v| && !IsTrigger(rule, v[0])
    requires StartsWith(ReplaceAll(rule, t), v)
    ensures |t| > 0 && t[0] == v[0]
    ensures ReplaceAll(rule, t) == [t[0]] + ReplaceAll(rule, t[1..])
    ensures StartsWith(ReplaceAll(rule, t[1..]), v[1..])
  {
    var r := ReplaceAll(rule, t);
    assert r[0] == v[0] by {
      assert r[..|v|][0] == r[0];
    }
    CopiedHead(rule, t);
    ConsStartsWith(t[0], ReplaceAll(rule, t[1..]), v);
  }

  lemma ConsStartsWith(c: char, x: string, v: string)
    requires 0 < |v| && StartsWith([c] + x, v)
    ensures StartsWith(x, v[1..])
  {
    assert ([c] + x)[..|v|] == [c] + x[..|v| - 1];
  }

  /** A trigger-free prefix of the output was already in the input: rewriting
      never produces it. */
  lemma {:induction false} PrefixBack(rule: Rule, t: string, v: string)
    requires RestartsWithTrigger(rule)
    requires forall j :: 0 <= j < |v| ==> !IsTrigger(rule, v[j])
    requires StartsWith(ReplaceAll(rule, t), v)
    ensures StartsWith(t, v)
    ensures ReplaceAll(rule, t) == v + ReplaceAll(rule, t[|v|..])
    decreases |v|
  {
    if |v| == 0 {
      assert t[0..] == t;
    } else {
      PrefixHead(rule, t, v);
      PrefixBack(rule, t[1..], v[1..]);
      ConsPrefix(t, v, ReplaceAll(rule, t[1..][|v| - 1..]));
    }
  }

  /** The replacement of `q` starts with one of `q`'s own trigger characters, so
      no trigger-free text can come out of a replacement. */
  predicate RestartsWithTrigger(q: Rule) {
    |q.replacement| > 0 && IsTrigger(q, q.replacement[0])
  }

  /** Neither the reach of `p` nor the `http` after it contains a character that starts `q`. */
  ghost predicate ReachFreeOf(p: Rule, q: Rule) {
    && (forall c :: InAlphabet(p.reach, c) ==> !IsTrigger(q, c))
    && (p.guarded ==> !IsTrigger(q, 'h') && !IsTrigger(q, 't') && !IsTrigger(q, 'p'))
  }

  /** `u` cannot begin a match of `p`, whatever follows it. */
  ghost predicate Refutes(p: Rule, u: string) {
    forall y :: MatchLen(p, u + y).None?
  }

  /** No tail of `u` begins a match of `p`, whatever follows it. */
  ghost predicate Inert(p: Rule, u: string) {
    forall i :: 0 <= i < |u| ==> Refutes(p, u[i..])
  }

  /** No tail of `q`'s replacement starts a match of `p`, whatever follows it. */
  ghost predicate ReplacementInert(q: Rule, p: Rule) {
    Inert(p, q.replacement)
  }

  /** Rewriting with `q` can neither create nor complete a match of `p`. */
  ghost predicate Avoids(q: Rule, p: Rule) {
    RestartsWithTrigger(q) && ReachFreeOf(p, q) && ReplacementInert(q, p)
  }

  /** A reach of `p` found in the output of `q` was in the input already, with the
      same text after it rewritten. */
  lemma ReachBack(p: Rule, q: Rule, t: string)
    requires RestartsWithTrigger(q) && ReachFreeOf(p, q)
    requires Reaches(p.reach, ReplaceAll(q, t)).Some?
    ensures Reaches(p.reach, t) == Reaches(p.reach, ReplaceAll(q, t))
    ensures ReplaceAll(q, t)[Reaches(p.reach, t).value..]
         == ReplaceAll(q, t[Reaches(p.reach, t).value..])
  {
    var r := ReplaceAll(q, t);
    var n := Reaches(p.reach, r).value;
    ReachAlphabet(p.reach, r);
    PrefixBack(q, t, r[..n]);
    ReachPrefixOnly(p.reach, r, t);
  }

  /** One unmatched character followed by rewritten text: if `c` did not start a
      match of `p` before `q` rewrote what follows it, it does not afterwards. */
  lemma HeadStep(p: Rule, q: Rule, c: char, t: string)
    requires RestartsWithTrigger(q) && ReachFreeOf(p, q)
    requires MatchLen(p, [c] + t).None?
    ensures MatchLen(p, [c] + ReplaceAll(q, t)).None?
  {
    var r := ReplaceAll(q, t);
    assert ([c] + r)[1..] == r;
    if IsTrigger(p, c) && Reaches(p.reach, r).Some? {
      ReachBack(p, q, t);
      HeadGuard(p, q, c, t, Reaches(p.reach, t).value);
    }
  }

  /** The guard step of `HeadStep`: the `http` that refused the match before
      the rewrite is still there after it. */
  lemma HeadGuard(p: Rule, q: Rule, c: char, t: string, n: nat)
    requires ReachFreeOf(p, q) && IsTrigger(p, c)
    requires Reaches(p.reach, t) == Some(n) && Reaches(p.reach, ReplaceAll(q, t)) == Some(n)
    requires ReplaceAll(q, t)[n..] == ReplaceAll(q, t[n..])
    requires MatchLen(p, [c] + t).None?
    ensures MatchLen(p, [c] + ReplaceAll(q, t)).None?
  {
    var r := ReplaceAll(q, t);
    assert ([c] + t)[1..] == t && ([c] + t)[1 + n..] == t[n..];
    assert p.guarded && StartsWith(t[n..], "http");
    SkipHttp(q, t[n..]);
    assert ([c] + r)[1..] == r && ([c] + r)[1 + n..] == r[n..];
    assert r[n..][..4] == "http";
  }

  /** No residual matches: after the replacement the text holds no match of the
      rule's own pattern. */
  lemma {:induction false} NoResidual(rule: Rule, s: string)
    requires Avoids(rule, rule)
    ensures Clean(rule, ReplaceAll(rule, s))
    decreases |s|
  {
    if |s| > 0 {
      var r := ReplaceAll(rule, s);
      match MatchLen(rule, s)
      case Some(n) =>
        var rep := rule.replacement;
        var tail := ReplaceAll(rule, s[n..]);
        NoResidual(rule, s[n..]);
        assert r == rep + tail;
        forall i | 0 <= i < |r| ensures MatchLen(rule, r[i..]).None? {
          if i < |rep| {
            assert r[i..] == rep[i..] + tail;
            assert Refutes(rule, rep[i..]);
          } else {
            assert r[i..] == tail[i - |rep|..];
          }
        }
      case None =>
        var tail := ReplaceAll(rule, s[1..]);
        NoResidual(rule, s[1..]);
        assert r == [s[0]] + tail;
        assert [s[0]] + s[1..] == s;
        HeadStep(rule, rule, s[0], s[1..]);
        forall i | 0 <= i < |r| ensures MatchLen(rule, r[i..]).None? {
          if i == 0 {
            assert r[0..] == r;
          } else {
            assert r[i..] == tail[i - 1..];
          }
        }
    }
  }

  /** Rewriting with `q` keeps a text free of matches of `p`. */
  lemma {:induction false} KeepsClean(p: Rule, q: Rule, s: string)
    requires Avoids(q, p)
    requires Clean(p, s)
    ensures Clean(p, ReplaceAll(q, s))
    decreases |s|
  {
    if |s| > 0 {
      var r := ReplaceAll(q, s);
      match MatchLen(q, s)
      case Some(n) =>
        var rep := q.replacement;
        var tail := ReplaceAll(q, s[n..]);
        CleanSuffix(p, s, n);
        KeepsClean(p, q, s[n..]);
        assert r == rep + tail;
        forall i | 0 <= i < |r| ensures MatchLen(p, r[i..]).None? {
          if i < |rep| {
            assert r[i..] == rep[i..] + tail;
            assert Refutes(p, rep[i..]);
          } else {
            assert r[i..] == tail[i - |rep|..];
          }
        }
      case None =>
        var tail := ReplaceAll(q, s[1..]);
        CleanSuffix(p, s, 1);
        KeepsClean(p, q, s[1..]);
        assert r == [s[0]] + tail;
        assert [s[0]] + s[1..] == s;
        assert s[0..] == s;
        HeadStep(p, q, s[0], s[1..]);
        forall i | 0 <= i < |r| ensures MatchLen(p, r[i..]).None? {
          if i == 0 {
            assert r[0..] == r;
          } else {
            assert r[i..] == tail[i - 1..];
          }
        }
    }
  }

  /** Idempotence: a second application of the rule changes nothing. */
  lemma Idempotent(rule: Rule, s: string)
    requires Avoids(rule, rule)
    ensures ReplaceAll(rule, ReplaceAll(rule, s)) == ReplaceAll(rule, s)
  {
    NoResidual(rule, s);
    CleanUnchanged(rule, ReplaceAll(rule, s));
  }

  /** An unmatched first character is copied and the scan moves on. */
  lemma UnmatchedHead(rule: Rule, c: char, t: string)
    requires MatchLen(rule, [c] + t).None?
    ensures ReplaceAll(rule, [c] + t) == [c] + ReplaceAll(rule, t)
  {
    assert ([c] + t)[1..] == t;
  }

  /** Where the look-ahead sees `http`, a guarded rule does not match. */
  lemma GuardRefuses(rule: Rule, c: char, t: string)
    requires rule.guarded && IsTrigger(rule, c)
    requires Reaches(rule.reach, t).Some?
    requires StartsWith(t[Reaches(rule.reach, t).value..], "http")
    ensures MatchLen(rule, [c] + t).None?
  {
    var ct := [c] + t;
    assert ct[1..] == t && ct[1 + Reaches(rule.reach, t).value..] == t[Reaches(rule.reach, t).value..];
  }

  /** The characters of a reach are copied: none of them starts the rule. */
  lemma SkipReach(rule: Rule, t: string)
    requires ReachFreeOf(rule, rule)
    requires Reaches(rule.reach, t).Some?
    ensures var n := Reaches(rule.reach, t).value;
            ReplaceAll(rule, t) == t[..n] + ReplaceAll(rule, t[n..])
  {
    var n := Reaches(rule.reach, t).value;
    ReachAlphabet(rule.reach, t);
    assert t == t[..n] + t[n..];
    SkipTriggerFree(rule, t[..n], t[n..]);
  }

  /** `http` is copied by every rule whose triggers avoid its letters. */
  lemma SkipHttp(rule: Rule, t: string)
    requires !IsTrigger(rule, 'h') && !IsTrigger(rule, 't') && !IsTrigger(rule, 'p')
    requires StartsWith(t, "http")
    ensures ReplaceAll(rule, t) == "http" + ReplaceAll(rule, t[4..])
  {
    assert t == "http" + t[4..];
    SkipTriggerFree(rule, "http", t[4..]);
  }

  /** The `(?!http)` guard: where the pattern reaches its slash and `http`
      follows, the slash, the `http` and everything before them are kept. */
  lemma KeepsAbsoluteUrl(rule: Rule, c: char, t: string, n: nat)
    requires ReachFreeOf(rule, rule) && rule.guarded
    requires IsTrigger(rule, c)
    requires Reaches(rule.reach, t) == Some(n)
    requires StartsWith(t[n..], "http")
    ensures ReplaceAll(rule, [c] + t) == [c] + t[..n] + "http" + ReplaceAll(rule, t[n + 4..])
  {
    var a, x, y, z := ReplaceAll(rule, [c] + t), ReplaceAll(rule, t), ReplaceAll(rule, t[n..]), ReplaceAll(rule, t[n + 4..]);
    assert a == [c] + x by {
      GuardRefuses(rule, c, t);
      UnmatchedHead(rule, c, t);
    }
    assert x == t[..n] + y by {
      SkipReach(rule, t);
    }
    assert y == "http" + z by {
      SkipHttp(rule, t[n..]);
      assert t[n..][4..] == t[n + 4..];
    }
    AbsoluteRegroup(c, t[..n], a, x, y, z);
  }

  lemma AbsoluteRegroup(c: char, pre: string, a: string, x: string, y: string, z: string)
    requires a == [c] + x && x == pre + y && y == "http" + z
    ensures a == [c] + pre + "http" + z
  {
  }
}

=== FILE: rewriters.dfy ===
/** The three per-file rewriters of fix-github-paths.js. Each applies its fixed
    sequence of global replacements to the whole text of one file. */
module Rewriters {
  import opened Wrappers
  import opened Text
  import opened Rules
  import opened Replace
  import opened RuleFacts
  import opened Canonical

  // ---------------------------------------------------------------- HTML

  /** The attribute stage of `fixPathsInHtmlFile`: `href="/` and `src="/` become
      `href="./` and `src="./`. Afterwards neither occurs anywhere. */
  function FixHtmlAttributes(text: string): (r: string)
    ensures Clean(HrefRoot, r) && Clean(SrcRoot, r)
  {
    HtmlAttributePasses(text);
    ReplaceAll(SrcRoot, ReplaceAll(HrefRoot, text))
  }

  /** The registration pass applied twice equals one application. */
  lemma HtmlRegistrationIdempotent(text: string)
    ensures ReplaceAll(SwRegisterHtml, ReplaceAll(SwRegisterHtml, text)) == ReplaceAll(SwRegisterHtml, text)
  {
    SwRegisterHtmlAvoidsItself();
    Idempotent(SwRegisterHtml, text);
  }

  /** Both attribute rules are fixed words whose quote must be followed by a slash. */
  lemma AttributeRulesQuoteSlash()
    ensures QuoteSlashWord(HrefRoot, 4) && QuoteSlashWord(SrcRoot, 3)
  {
  }

  /** For a repository name without `"`, the canonical-URL and registration
      stages create no `href="/` and no `src="/`. */
  lemma LaterHtmlStagesKeepAttributes(attributes: string, repoName: string)
    requires Clean(HrefRoot, attributes) && Clean(SrcRoot, attributes)
    ensures '"' !in repoName ==>
              var r := ReplaceAll(SwRegisterHtml, Retarget(repoName, attributes));
              Clean(HrefRoot, r) && Clean(SrcRoot, r)
  {
    if '"' !in repoName {
      var retargeted := Retarget(repoName, attributes);
      AttributeRulesQuoteSlash();
      RetargetKeepsClean(HrefRoot, 4, repoName, attributes);
      RetargetKeepsClean(SrcRoot, 3, repoName, attributes);
      SwRegisterHtmlAvoidsHrefRoot();
      KeepsClean(HrefRoot, SwRegisterHtml, retargeted);
      SwRegisterHtmlAvoidsSrcRoot();
      KeepsClean(SrcRoot, SwRegisterHtml, retargeted);
    }
  }

  /** `fixPathsInHtmlFile`: the attribute stage, the canonical-URL stage and the
      service-worker registration stage, in that order. No single-quoted
      registration of `/service-worker.js` remains, and, unless the repository
      name itself holds a `"`, no `href="/` or `src="/` either. */
  function FixHtml(text: string, repoName: string): (r: string)
    ensures Clean(SwRegisterHtml, r)
    ensures '"' !in repoName ==> Clean(HrefRoot, r) && Clean(SrcRoot, r)
  {
    var attributes := FixHtmlAttributes(text);
    var retargeted := Retarget(repoName, attributes);
    HtmlRegistrationPass(retargeted);
    LaterHtmlStagesKeepAttributes(attributes, repoName);
    ReplaceAll(SwRegisterHtml, retargeted)
  }

  /** Markup whose attributes are already relative, and whose canonical-URL
      output holds no single-quoted root registration, comes out as the
      canonical-URL stage leaves it: production-origin URLs are moved to the
      project site. */
  lemma FixHtmlRetargets(text: string, repoName: string)
    requires Clean(HrefRoot, text) && Clean(SrcRoot, text)
    requires Clean(SwRegisterHtml, Retarget(repoName, text))
    ensures FixHtml(text, repoName) == Retarget(repoName, text)
  {
    HtmlAttributesUnchanged(text);
    CleanUnchanged(SwRegisterHtml, Retarget(repoName, text));
  }

  /** Markup with no root-relative `href` or `src`, no production-origin URL and
      no single-quoted root registration is returned unchanged, whatever the
      repository name. */
  lemma HtmlUnchanged(text: string, repoName: string)
    requires Clean(HrefRoot, text) && Clean(SrcRoot, text) && Clean(SwRegisterHtml, text)
    requires forall i :: 0 <= i < |text| ==> OriginAttr(text[i..]).None?
    ensures FixHtml(text, repoName) == text
  {
    HtmlAttributesUnchanged(text);
    RetargetUnchanged(repoName, text);
    CleanUnchanged(SwRegisterHtml, text);
  }

  /** Attributes already relative are left alone, whatever else the text holds. */
  lemma HtmlAttributesUnchanged(text: string)
    requires Clean(HrefRoot, text) && Clean(SrcRoot, text)
    ensures FixHtmlAttributes(text) == text
  {
    CleanUnchanged(HrefRoot, text);
    CleanUnchanged(SrcRoot, text);
  }

  lemma HtmlAttributesIdempotent(text: string)
    ensures FixHtmlAttributes(FixHtmlAttributes(text)) == FixHtmlAttributes(text)
  {
    HtmlAttributesUnchanged(FixHtmlAttributes(text));
  }

  /** `href="/path` becomes `href="./path`, and the scan resumes after the slash. */
  lemma HrefRootRewritten(rest: string)
    ensures ReplaceAll(HrefRoot, "href=\"/" + rest) == "href=\"./" + ReplaceAll(HrefRoot, rest)
  {
    var m := "href=\"/";
    assert MatchLen(HrefRoot, m + rest) == Some(|m|) by {
      var t := m + rest;
      assert t[1..][..6] == "ref=\"/";
    }
    MatchedPrefix(HrefRoot, m, rest);
  }

  /** `src="/path` becomes `src="./path`, and the scan resumes after the slash. */
  lemma SrcRootRewritten(rest: string)
    ensures ReplaceAll(SrcRoot, "src=\"/" + rest) == "src=\"./" + ReplaceAll(SrcRoot, rest)
  {
    var m := "src=\"/";
    assert MatchLen(SrcRoot, m + rest) == Some(|m|) by {
      var t := m + rest;
      assert t[1..][..5] == "rc=\"/";
    }
    MatchedPrefix(SrcRoot, m, rest);
  }

  /** There is no guard for protocol-relative URLs: `href="//host/` becomes
      `href=".//host/`. */
  lemma HrefProtocolRelativeRewritten(rest: string)
    ensures ReplaceAll(HrefRoot, "href=\"//" + rest) == "href=\".//" + ReplaceAll(HrefRoot, rest)
  {
    assert "href=\"//" + rest == "href=\"/" + ("/" + rest);
    HrefRootRewritten("/" + rest);
    SkipTriggerFree(HrefRoot, "/", rest);
  }

  /** The same holds for `src="//host/`, which becomes `src=".//host/`. */
  lemma SrcProtocolRelativeRewritten(rest: string)
    ensures ReplaceAll(SrcRoot, "src=\"//" + rest) == "src=\".//" + ReplaceAll(SrcRoot, rest)
  {
    assert "src=\"//" + rest == "src=\"/" + ("/" + rest);
    SrcRootRewritten("/" + rest);
    SkipTriggerFree(SrcRoot, "/", rest);
  }

  /** The single-quoted registration of `/service-worker.js` becomes one of
      `./service-worker.js`. */
  lemma HtmlRegistrationRewritten(rest: string)
    ensures ReplaceAll(SwRegisterHtml, SwRegisterCall + "'/" + SwScript + "'" + rest)
         == SwRegisterCall + "'./" + SwScript + "'" + ReplaceAll(SwRegisterHtml, rest)
  {
    var m := SwRegisterCall + "'/" + SwScript + "'";
    HtmlRegistrationMatch(m, rest);
    MatchedPrefix(SwRegisterHtml, m, rest);
  }

  lemma HtmlRegistrationMatch(m: string, rest: string)
    requires m == SwRegisterCall + "'/" + SwScript + "'"
    ensures MatchLen(SwRegisterHtml, m + rest) == Some(|m|)
  {
    var word := SwRegisterHtml.reach.word;
    assert m == "n" + word;
    assert (m + rest)[1..] == word + rest;
    StartsWithAppend(word, rest, word);
  }

  /** A double-quoted registration in HTML is left as it is. */
  lemma HtmlDoubleQuotedRegistrationKept(rest: string)
    ensures ReplaceAll(SwRegisterHtml, SwRegisterCall + "\"/" + rest)
         == SwRegisterCall + "\"/" + ReplaceAll(SwRegisterHtml, rest)
  {
    var v := SwRegisterCallTail + "\"/";
    HtmlRegistrationNotDoubleQuoted(v, rest);
    UnmatchedHead(SwRegisterHtml, 'n', v + rest);
    DoubleQuotedCallCopied(v);
    SkipTriggerFree(SwRegisterHtml, v, rest);
    DoubleQuotedCallSplit(rest);
    DoubleQuotedCallSplit(ReplaceAll(SwRegisterHtml, rest));
  }

  lemma HtmlRegistrationNotDoubleQuoted(v: string, rest: string)
    requires v == SwRegisterCallTail + "\"/"
    ensures MatchLen(SwRegisterHtml, "n" + (v + rest)).None?
  {
    assert ("n" + (v + rest))[1..] == v + rest;
    assert (v + rest)[32] == '"';
    MismatchNotPrefix(v + rest, SwRegisterHtml.reach.word, 32);
  }

  lemma DoubleQuotedCallCopied(v: string)
    requires v == SwRegisterCallTail + "\"/"
    ensures forall j :: 0 <= j < |v| ==> !IsTrigger(SwRegisterHtml, v[j])
  {
    CallLetters();
    assert forall j :: 0 <= j < |SwRegisterCallTail| ==> v[j] == SwRegisterCallTail[j];
  }

  lemma DoubleQuotedCallSplit(x: string)
    ensures SwRegisterCall + "\"/" + x == "n" + (SwRegisterCallTail + "\"/" + x)
  {
  }

  // ----------------------------------------------------------------- CSS

  /** `fixPathsInCssFile`: root-relative `url(/`, then `@import`, then font
      `src:`, each made relative unless `http` follows the slash. Afterwards no
      rewritable occurrence of any of the three remains. */
  function FixCss(text: string): (r: string)
    ensures Clean(CssUrl, r) && Clean(CssImport, r) && Clean(CssFontSrc, r)
  {
    CssPasses(text);
    ReplaceAll(CssFontSrc, ReplaceAll(CssImport, ReplaceAll(CssUrl, text)))
  }

  /** A stylesheet with nothing left to rewrite is left as it is. */
  lemma CssUnchanged(text: string)
    requires Clean(CssUrl, text) && Clean(CssImport, text) && Clean(CssFontSrc, text)
    ensures FixCss(text) == text
  {
    CleanUnchanged(CssUrl, text);
    CleanUnchanged(CssImport, text);
    CleanUnchanged(CssFontSrc, text);
  }

  lemma CssIdempotent(text: string)
    ensures FixCss(FixCss(text)) == FixCss(text)
  {
    CssUnchanged(FixCss(text));
  }

  /** A quote is never white space, so a quote ends a `\s+` run. */
  lemma QuoteNotSpace(q: char)
    requires IsQuote(q)
    ensures !IsSpace(q)
  {
  }

  /** `word`, a quote and a slash pass the quote-slash test. */
  lemma QuoteSlashOf(w: string, q: char, x: string, rest: string)
    requires IsQuote(q) && x == w + [q] + "/"
    ensures QuoteSlashAfter(x + rest, w) == Some(|x|)
  {
    var t := x + rest;
    assert t == w + ([q] + "/" + rest);
    StartsWithAppend(w, [q] + "/" + rest, w);
    assert t[|w|] == q && t[|w| + 1] == '/';
  }

  /** A head, a non-empty white-space run, a word, a quote and a slash form a spaced reach. */
  lemma SpacedReachOf(h: string, ws: string, w: string, q: char, x: string, rest: string)
    requires |ws| > 0 && forall j :: 0 <= j < |ws| ==> IsSpace(ws[j])
    requires |w| > 0 ==> !IsSpace(w[0])
    requires IsQuote(q) && x == h + ws + w + [q] + "/"
    ensures SpacedReach(h, w, x + rest) == Some(|x|)
  {
    var after := w + [q] + "/" + rest;
    var t := x + rest;
    SpacedPieces(h, ws, w, q, x, rest);
    WordStart(w, q, rest);
    SpaceRunUnique(ws + after, |ws|);
    QuoteSlashOf(w, q, w + [q] + "/", rest);
    SpacedFromParts(h, w, t, |ws|);
  }

  lemma SpacedPieces(h: string, ws: string, w: string, q: char, x: string, rest: string)
    requires x == h + ws + w + [q] + "/"
    ensures |x| == |h| + |ws| + |w| + 2
    ensures StartsWith(x + rest, h)
    ensures (x + rest)[|h|..] == ws + (w + [q] + "/" + rest)
    ensures (x + rest)[|h| + |ws|..] == w + [q] + "/" + rest
  {
    assert x + rest == h + (ws + (w + [q] + "/" + rest));
  }

  /** The text after the white-space run does not start with white space. */
  lemma WordStart(w: string, q: char, rest: string)
    requires |w| > 0 ==> !IsSpace(w[0])
    requires IsQuote(q)
    ensures !IsSpace((w + [q] + "/" + rest)[0])
  {
    QuoteNotSpace(q);
  }

  /** `url(/path` becomes `url(./path`. */
  lemma CssUrlRewritten(rest: string)
    requires !StartsWith(rest, "http")
    ensures ReplaceAll(CssUrl, "url(/" + rest) == "url(./" + ReplaceAll(CssUrl, rest)
  {
    var m := "url(/";
    assert MatchLen(CssUrl, m + rest) == Some(|m|) by {
      assert (m + rest)[1..][..4] == "rl(/";
      assert (m + rest)[5..] == rest;
    }
    MatchedPrefix(CssUrl, m, rest);
  }

  /** `url(/http…` is left alone by the `(?!http)` guard. */
  lemma CssUrlKeepsAbsolute(rest: string)
    ensures ReplaceAll(CssUrl, "url(/http" + rest) == "url(/http" + ReplaceAll(CssUrl, rest)
  {
    var t := "rl(/http" + rest;
    CssUrlAbsoluteReach(rest);
    CssUrlAvoidsItself();
    KeepsAbsoluteUrl(CssUrl, 'u', t, 4);
    CssUrlAbsoluteSplit(rest, ReplaceAll(CssUrl, rest));
  }

  lemma CssUrlAbsoluteReach(rest: string)
    ensures var t := "rl(/http" + rest;
            Reaches(CssUrl.reach, t) == Some(4) && StartsWith(t[4..], "http")
            && t[..4] == "rl(/" && t[8..] == rest
  {
    var t := "rl(/http" + rest;
    assert t[..4] == "rl(/";
    assert t[4..][..4] == "http";
  }

  lemma CssUrlAbsoluteSplit(rest: string, x: string)
    ensures "url(/http" + rest == ['u'] + ("rl(/http" + rest)
    ensures ['u'] + "rl(/" + "http" + x == "url(/http" + x
  {
  }

  /** The `url(` rule wants the slash right after the parenthesis: a quoted
      `url('/…')` is not its match. */
  lemma CssUrlNeedsBareSlash(q: char, rest: string)
    requires IsQuote(q)
    ensures MatchLen(CssUrl, "url(" + [q] + "/" + rest).None?
  {
    var t1 := ("url(" + [q] + "/" + rest)[1..];
    MismatchNotPrefix(t1, "rl(/", 3);
  }

  /** An absolute URL written without a leading slash, `url(http…`, is not a
      match and is copied unchanged. */
  lemma CssUrlHttpKept(rest: string)
    ensures ReplaceAll(CssUrl, "url(http" + rest) == "url(http" + ReplaceAll(CssUrl, rest)
  {
    var t := "url(http" + rest;
    assert MatchLen(CssUrl, t).None? by {
      MismatchNotPrefix(t[1..], "rl(/", 3);
    }
    assert t[1..] == "rl(http" + rest;
    SkipTriggerFree(CssUrl, "rl(http", rest);
    assert "url(http" == [t[0]] + "rl(http";
  }

  /** `@import`, any white-space run, either quote and a slash become
      `@import './`: the quote style and spacing are normalised. */
  lemma CssImportNormalised(ws: string, q: char, rest: string)
    requires |ws| > 0 && forall j :: 0 <= j < |ws| ==> IsSpace(ws[j])
    requires IsQuote(q) && !StartsWith(rest, "http")
    ensures ReplaceAll(CssImport, "@import" + ws + [q] + "/" + rest)
         == "@import './" + ReplaceAll(CssImport, rest)
  {
    var m := "@import" + ws + [q] + "/";
    assert m[0] == '@' && m[1..] == "import" + ws + "" + [q] + "/";
    SpacedReachOf("import", ws, "", q, m[1..], rest);
    ReachMatch(CssImport, m, rest);
    MatchedPrefix(CssImport, m, rest);
  }

  /** `src:`, any white-space run, `url(`, either quote and a slash become
      `src: url('./`. */
  lemma CssFontSrcNormalised(ws: string, q: char, rest: string)
    requires |ws| > 0 && forall j :: 0 <= j < |ws| ==> IsSpace(ws[j])
    requires IsQuote(q) && !StartsWith(rest, "http")
    ensures ReplaceAll(CssFontSrc, "src:" + ws + "url(" + [q] + "/" + rest)
         == "src: url('./" + ReplaceAll(CssFontSrc, rest)
  {
    var m := "src:" + ws + "url(" + [q] + "/";
    assert m[0] == 's' && m[1..] == "rc:" + ws + "url(" + [q] + "/";
    assert !IsSpace('u');
    SpacedReachOf("rc:", ws, "url(", q, m[1..], rest);
    ReachMatch(CssFontSrc, m, rest);
    MatchedPrefix(CssFontSrc, m, rest);
  }

  /** `\s+` needs at least one white-space character: `src:url(` is not a
      font-source match. */
  lemma CssFontSrcNeedsSpace(rest: string)
    ensures MatchLen(CssFontSrc, "src:url(" + rest).None?
  {
    var t1 := ("src:url(" + rest)[1..];
    assert t1[3..][0] == 'u';
    assert !IsSpace('u');
  }

  // ------------------------------------------------------------ JavaScript

  /** The two call rewrites of `fixPathsInJsFile`, applied to every script:
      `fetch(` and the service-worker registration, each on a quoted
      root-relative path. */
  function FixJsCalls(text: string): (r: string)
    ensures Clean(JsFetch, r) && Clean(JsSwRegister, r)
  {
    JsCallPasses(text);
    ReplaceAll(JsSwRegister, ReplaceAll(JsFetch, text))
  }

  /** `fixPathsInJsFile`: the call rewrites, then, in `service-worker.js` only,
      every quoted root-relative path. */
  function FixJs(fileName: string, text: string): (r: string)
    ensures Clean(JsFetch, r) && Clean(JsSwRegister, r)
    ensures fileName == SwScript ==> Clean(JsQuoted, r)
  {
    var calls := FixJsCalls(text);
    if fileName == SwScript then
      JsQuotedPass(calls);
      ReplaceAll(JsQuoted, calls)
    else calls
  }

  /** A script with nothing left to rewrite is left as it is. */
  lemma JsUnchanged(fileName: string, text: string)
    requires Clean(JsFetch, text) && Clean(JsSwRegister, text)
    requires fileName == SwScript ==> Clean(JsQuoted, text)
    ensures FixJs(fileName, text) == text
  {
    CleanUnchanged(JsFetch, text);
    CleanUnchanged(JsSwRegister, text);
    if fileName == SwScript {
      CleanUnchanged(JsQuoted, text);
    }
  }

  lemma JsIdempotent(fileName: string, text: string)
    ensures FixJs(fileName, FixJs(fileName, text)) == FixJs(fileName, text)
  {
    JsUnchanged(fileName, FixJs(fileName, text));
  }

  /** `fetch(` on a quoted root-relative path becomes `fetch('./`, whichever quote was used. */
  lemma JsFetchNormalised(q: char, rest: string)
    requires IsQuote(q) && !StartsWith(rest, "http")
    ensures ReplaceAll(JsFetch, "fetch(" + [q] + "/" + rest) == "fetch('./" + ReplaceAll(JsFetch, rest)
  {
    var m := "fetch(" + [q] + "/";
    assert m[0] == 'f' && m[1..] == "etch(" + [q] + "/";
    QuoteSlashOf("etch(", q, m[1..], rest);
    ReachMatch(JsFetch, m, rest);
    MatchedPrefix(JsFetch, m, rest);
  }

  /** The registration call on a quoted root-relative path gets `'./`, whichever quote was used. */
  lemma JsSwRegisterNormalised(q: char, rest: string)
    requires IsQuote(q) && !StartsWith(rest, "http")
    ensures ReplaceAll(JsSwRegister, SwRegisterCall + [q] + "/" + rest)
         == SwRegisterCall + "'./" + ReplaceAll(JsSwRegister, rest)
  {
    var m := SwRegisterCall + [q] + "/";
    assert m[0] == 'n' && m[1..] == SwRegisterCallTail + [q] + "/";
    QuoteSlashOf(SwRegisterCallTail, q, m[1..], rest);
    ReachMatch(JsSwRegister, m, rest);
    MatchedPrefix(JsSwRegister, m, rest);
  }

  /** In the service worker, a quoted root-relative path becomes `'./`. */
  lemma JsQuotedRewritten(q: char, rest: string)
    requires IsQuote(q) && !StartsWith(rest, "http")
    ensures ReplaceAll(JsQuoted, [q] + "/" + rest) == "'./" + ReplaceAll(JsQuoted, rest)
  {
    var m := [q] + "/";
    assert MatchLen(JsQuoted, m + rest) == Some(|m|) by {
      assert (m + rest)[1..][..1] == "/";
      assert (m + rest)[2..] == rest;
    }
    MatchedPrefix(JsQuoted, m, rest);
  }

  /** Outside `service-worker.js` a quoted root-relative path that is not a
      call argument is kept. */
  lemma JsQuotedGatedOnName(fileName: string, q: char, rest: string)
    requires fileName != SwScript && IsQuote(q)
    ensures FixJs(fileName, [q] + "/" + rest) == [q] + "/" + FixJs(fileName, rest)
  {
    var v := [q] + "/";
    SkipTriggerFree(JsFetch, v, rest);
    SkipTriggerFree(JsSwRegister, v, ReplaceAll(JsFetch, rest));
  }
}

=== FILE: rule_facts.dfy ===
/** Facts about the concrete rules of the path rewriter: which of them can be
    applied after which without creating or completing a match of an earlier one. */
module RuleFacts {
  import opened Text
  import opened Rules
  import opened Replace

  /** A text none of whose characters starts `p` has no tail that starts a match. */
  lemma InertTriggerFree(p: Rule, u: string)
    requires forall c :: c in u ==> !IsTrigger(p, c)
    ensures Inert(p, u)
  {
    forall i | 0 <= i < |u| ensures Refutes(p, u[i..]) {
      forall y ensures MatchLen(p, u[i..] + y).None? {
        assert (u[i..] + y)[0] == u[i];
      }
    }
  }

  /** A text without the trigger character of `p` has no tail that starts a match. */
  lemma InertCharFree(p: Rule, u: string)
    requires p.trigger.Char? && p.trigger.c !in u
    ensures Inert(p, u)
  {
    InertTriggerFree(p, u);
  }

  lemma InertConcat(p: Rule, a: string, b: string)
    requires Inert(p, a) && Inert(p, b)
    ensures Inert(p, a + b)
  {
    forall i | 0 <= i < |a + b| ensures Refutes(p, (a + b)[i..]) {
      if i < |a| {
        assert Refutes(p, a[i..]);
        forall y ensures MatchLen(p, (a + b)[i..] + y).None? {
          assert (a + b)[i..] + y == a[i..] + (b + y);
        }
      } else {
        assert (a + b)[i..] == b[i - |a|..];
      }
    }
  }

  lemma InertCons(p: Rule, c: char, rest: string)
    requires Refutes(p, [c] + rest) && Inert(p, rest)
    ensures Inert(p, [c] + rest)
  {
    var u := [c] + rest;
    forall i | 0 <= i < |u| ensures Refutes(p, u[i..]) {
      if i == 0 {
        assert u[0..] == u;
      } else {
        assert u[i..] == rest[i - 1..];
      }
    }
  }

  /** A text whose first character cannot start a match and whose other
      characters are not triggers at all. */
  lemma InertFromHead(p: Rule, u: string)
    requires |u| > 0 && Refutes(p, u)
    requires forall c :: c in u[1..] ==> !IsTrigger(p, c)
    ensures Inert(p, u)
  {
    InertTriggerFree(p, u[1..]);
    assert u == [u[0]] + u[1..];
    InertCons(p, u[0], u[1..]);
  }

  /** A fixed word broken at position `j`: no match, whatever follows. */
  lemma ExactRefutes(p: Rule, u: string, j: nat)
    requires p.reach.Exact?
    requires j < |p.reach.word| && j + 1 < |u| && u[j + 1] != p.reach.word[j]
    ensures Refutes(p, u)
  {
    forall y ensures MatchLen(p, u + y).None? {
      var t := u + y;
      assert t[1..][j] == u[j + 1];
      MismatchNotPrefix(t[1..], p.reach.word, j);
    }
  }

  /** A quote not followed by a slash: no match, whatever follows. */
  lemma QuotedRefutes(p: Rule, u: string)
    requires p.reach.QuotedSlash?
    requires |p.reach.word| + 2 < |u| && u[|p.reach.word| + 2] != '/'
    ensures Refutes(p, u)
  {
    forall y ensures MatchLen(p, u + y).None? {
      var t := u + y;
      assert t[1..][|p.reach.word| + 1] == u[|p.reach.word| + 2];
    }
  }

  /** A run of `k` white-space characters inside `u`, ended inside `u`, is the
      whole run whatever follows `u`. */
  lemma SpaceRunInside(u: string, y: string, off: nat, k: nat)
    requires off + k < |u|
    requires forall j :: off <= j < off + k ==> IsSpace(u[j])
    requires !IsSpace(u[off + k])
    ensures SpaceRun((u + y)[off..]) == k
  {
    var s := (u + y)[off..];
    assert forall j :: 0 <= j <= k ==> s[j] == u[off + j];
    SpaceRunUnique(s, k);
  }

  /** A white-space run of length `k` whose quote is not followed by a slash:
      no match, whatever follows. */
  lemma SpacedRefutes(p: Rule, u: string, k: nat)
    requires p.reach.SpacedQuotedSlash?
    requires 1 + |p.reach.head| + k + |p.reach.word| + 1 < |u|
    requires forall j :: 1 + |p.reach.head| <= j < 1 + |p.reach.head| + k ==> IsSpace(u[j])
    requires !IsSpace(u[1 + |p.reach.head| + k])
    requires u[1 + |p.reach.head| + k + |p.reach.word| + 1] != '/'
    ensures Refutes(p, u)
  {
    var h, w := p.reach.head, p.reach.word;
    forall y ensures MatchLen(p, u + y).None? {
      var t := (u + y)[1..];
      assert t[|h|..] == (u + y)[1 + |h|..];
      SpaceRunInside(u, y, 1 + |h|, k);
      assert t[|h| + k..][|w| + 1] == u[1 + |h| + k + |w| + 1];
    }
  }

  /** No quote of `u` is directly followed by a slash. */
  predicate NoQuoteSlash(u: string) {
    forall j :: 0 <= j < |u| - 1 ==> !(u[j] == '"' && u[j + 1] == '/')
  }

  /** Two such texts joined where no quote meets a slash. */
  lemma NoQuoteSlashConcat(a: string, b: string)
    requires NoQuoteSlash(a) && NoQuoteSlash(b)
    requires |a| > 0 && |b| > 0 ==> !(a[|a| - 1] == '"' && b[0] == '/')
    ensures NoQuoteSlash(a + b)
  {
    var u := a + b;
    forall j | 0 <= j < |u| - 1 ensures !(u[j] == '"' && u[j + 1] == '/') {
      if j + 1 < |a| {
        assert u[j] == a[j] && u[j + 1] == a[j + 1];
      } else if j + 1 == |a| {
        assert u[j] == a[|a| - 1] && u[j + 1] == b[0];
      } else {
        assert u[j] == b[j - |a|] && u[j + 1] == b[j + 1 - |a|];
      }
    }
  }

  /** A text without a quote. */
  lemma NoQuoteSlashQuoteFree(u: string)
    requires '"' !in u
    ensures NoQuoteSlash(u)
  {
  }

  /** `p` is a fixed word whose quote at `k` must be followed by a slash. A text
      with no quote followed by a slash, ending in a character that neither starts
      `p` nor occurs in the word up to its quote, has no tail that starts a match:
      the quote of a match would fall inside the text, on its last character, or
      after it. */
  lemma QuoteSlashInert(p: Rule, k: nat, u: string)
    requires p.reach.Exact? && k + 1 < |p.reach.word|
    requires p.reach.word[k] == '"' && p.reach.word[k + 1] == '/'
    requires NoQuoteSlash(u)
    requires |u| > 0 && !IsTrigger(p, u[|u| - 1]) && u[|u| - 1] !in p.reach.word[..k + 1]
    ensures Inert(p, u)
  {
    var w := p.reach.word;
    var last := |u| - 1;
    forall i | 0 <= i < |u| ensures Refutes(p, u[i..]) {
      forall y ensures MatchLen(p, u[i..] + y).None? {
        var t := u[i..] + y;
        assert t[0] == u[i];
        if i < last {
          var a := i + 1 + k;
          if a < last {
            assert t[1..][k] == u[a] && t[1..][k + 1] == u[a + 1];
            if u[a] != '"' {
              MismatchNotPrefix(t[1..], w, k);
            } else {
              MismatchNotPrefix(t[1..], w, k + 1);
            }
          } else {
            var m := last - i - 1;
            assert t[1..][m] == u[last];
            assert w[m] == w[..k + 1][m];
            MismatchNotPrefix(t[1..], w, m);
          }
        }
      }
    }
  }

  /** Letters the registration call and the script name lack: the triggers of
      the registration and fetch rules. */
  lemma CallLetters()
    ensures 'n' !in SwRegisterCallTail && 'f' !in SwRegisterCallTail
    ensures 'n' !in SwScript
  {
  }

  /** Neither the registration call nor the script name has an `h`. */
  lemma CallHasNoH()
    ensures 'h' !in SwRegisterCallTail && 'h' !in SwScript
  {
  }

  /** Neither the registration call nor the script name has a double quote. */
  lemma CallHasNoQuote()
    ensures '"' !in SwRegisterCallTail && '"' !in SwScript
  {
  }

  /** A text none of whose tails starts a match, followed by a clean text, is clean. */
  lemma CleanAfterInert(p: Rule, u: string, rest: string)
    requires Inert(p, u) && Clean(p, rest)
    ensures Clean(p, u + rest)
  {
    forall i | 0 <= i < |u + rest| ensures MatchLen(p, (u + rest)[i..]).None? {
      if i < |u| {
        assert Refutes(p, u[i..]);
        assert (u + rest)[i..] == u[i..] + rest;
      } else {
        assert (u + rest)[i..] == rest[i - |u|..];
      }
    }
  }

  /** A character that starts no match, followed by a clean text, is clean. */
  lemma CleanCons(p: Rule, c: char, rest: string)
    requires MatchLen(p, [c] + rest).None? && Clean(p, rest)
    ensures Clean(p, [c] + rest)
  {
    var u := [c] + rest;
    forall i | 0 <= i < |u| ensures MatchLen(p, u[i..]).None? {
      if i == 0 {
        assert u[0..] == u;
      } else {
        assert u[i..] == rest[i - 1..];
      }
    }
  }

  lemma HrefRootAvoidsItself()
    ensures Avoids(HrefRoot, HrefRoot)
  {
    assert ReplacementInert(HrefRoot, HrefRoot) by {
      var u := HrefRoot.replacement;
      ExactRefutes(HrefRoot, u, 5);
      InertFromHead(HrefRoot, u);
    }
  }

  lemma SrcRootAvoidsItself()
    ensures Avoids(SrcRoot, SrcRoot)
  {
    assert ReplacementInert(SrcRoot, SrcRoot) by {
      var u := SrcRoot.replacement;
      ExactRefutes(SrcRoot, u, 4);
      InertFromHead(SrcRoot, u);
    }
  }

  lemma SrcRootAvoidsHrefRoot()
    ensures Avoids(SrcRoot, HrefRoot)
  {
    assert ReplacementInert(SrcRoot, HrefRoot) by {
      InertCharFree(HrefRoot, SrcRoot.replacement);
    }
  }

  lemma SwRegisterHtmlAvoidsItself()
    ensures Avoids(SwRegisterHtml, SwRegisterHtml)
  {
    CallLetters();
    assert ReplacementInert(SwRegisterHtml, SwRegisterHtml) by {
      var u := SwRegisterHtml.replacement;
      var rest := SwRegisterCallTail + "'./" + SwScript + "'";
      assert u == "n" + rest;
      ExactRefutes(SwRegisterHtml, u, 33);
      InertTriggerFree(SwRegisterHtml, rest);
      InertCons(SwRegisterHtml, 'n', rest);
    }
  }

  lemma SwRegisterHtmlAvoidsHrefRoot()
    ensures Avoids(SwRegisterHtml, HrefRoot)
  {
    CallHasNoH();
    assert ReplacementInert(SwRegisterHtml, HrefRoot) by {
      InertCharFree(HrefRoot, SwRegisterHtml.replacement);
    }
  }

  lemma SwRegisterHtmlAvoidsSrcRoot()
    ensures Avoids(SwRegisterHtml, SrcRoot)
  {
    CallHasNoQuote();
    assert ReplacementInert(SwRegisterHtml, SrcRoot) by {
      var u := SwRegisterHtml.replacement;
      assert '"' !in u;
      QuoteSlashInert(SrcRoot, 3, u);
    }
  }

  lemma CssUrlAvoidsItself()
    ensures Avoids(CssUrl, CssUrl)
  {
    assert ReplacementInert(CssUrl, CssUrl) by {
      var u := CssUrl.replacement;
      ExactRefutes(CssUrl, u, 3);
      InertFromHead(CssUrl, u);
    }
  }

  lemma CssImportRefutes()
    ensures Refutes(CssImport, CssImport.replacement)
  {
    SpacedRefutes(CssImport, CssImport.replacement, 1);
  }

  lemma CssImportAvoidsItself()
    ensures Avoids(CssImport, CssImport)
  {
    assert ReplacementInert(CssImport, CssImport) by {
      var u := CssImport.replacement;
      CssImportRefutes();
      InertFromHead(CssImport, u);
    }
  }

  lemma CssFontSrcRefutes()
    ensures Refutes(CssFontSrc, CssFontSrc.replacement)
  {
    SpacedRefutes(CssFontSrc, CssFontSrc.replacement, 1);
  }

  lemma CssFontSrcAvoidsItself()
    ensures Avoids(CssFontSrc, CssFontSrc)
  {
    assert ReplacementInert(CssFontSrc, CssFontSrc) by {
      var u := CssFontSrc.replacement;
      CssFontSrcRefutes();
      InertFromHead(CssFontSrc, u);
    }
  }

  lemma CssImportAvoidsCssUrl()
    ensures Avoids(CssImport, CssUrl)
  {
    assert ReplacementInert(CssImport, CssUrl) by {
      InertCharFree(CssUrl, CssImport.replacement);
    }
  }

  /** The font-src replacement `src: url('./` contains `url(`, but its quote
      keeps it from being a root-relative `url(/`. */
  lemma CssFontSrcAvoidsCssUrl()
    ensures Avoids(CssFontSrc, CssUrl)
  {
    assert ReplacementInert(CssFontSrc, CssUrl) by {
      var a, b := "src: ", "url('./";
      assert CssFontSrc.replacement == a + b;
      InertTriggerFree(CssUrl, a);
      ExactRefutes(CssUrl, b, 3);
      InertTriggerFree(CssUrl, b[1..]);
      assert b == [b[0]] + b[1..];
      InertCons(CssUrl, b[0], b[1..]);
      InertConcat(CssUrl, a, b);
    }
  }

  lemma CssFontSrcAvoidsCssImport()
    ensures Avoids(CssFontSrc, CssImport)
  {
    assert ReplacementInert(CssFontSrc, CssImport) by {
      InertCharFree(CssImport, CssFontSrc.replacement);
    }
  }

  lemma JsFetchAvoidsItself()
    ensures Avoids(JsFetch, JsFetch)
  {
    assert ReplacementInert(JsFetch, JsFetch) by {
      var u := JsFetch.replacement;
      QuotedRefutes(JsFetch, u);
      InertFromHead(JsFetch, u);
    }
  }

  lemma JsSwRegisterAvoidsItself()
    ensures Avoids(JsSwRegister, JsSwRegister)
  {
    CallLetters();
    assert ReplacementInert(JsSwRegister, JsSwRegister) by {
      var u := JsSwRegister.replacement;
      var rest := SwRegisterCallTail + "'./";
      assert u == "n" + rest;
      QuotedRefutes(JsSwRegister, u);
      InertTriggerFree(JsSwRegister, rest);
      InertCons(JsSwRegister, 'n', rest);
    }
  }

  lemma JsSwRegisterAvoidsJsFetch()
    ensures Avoids(JsSwRegister, JsFetch)
  {
    CallLetters();
    assert ReplacementInert(JsSwRegister, JsFetch) by {
      InertCharFree(JsFetch, JsSwRegister.replacement);
    }
  }

  lemma JsQuotedAvoidsItself()
    ensures Avoids(JsQuoted, JsQuoted)
  {
    assert ReplacementInert(JsQuoted, JsQuoted) by {
      var u := JsQuoted.replacement;
      ExactRefutes(JsQuoted, u, 0);
      InertFromHead(JsQuoted, u);
    }
  }

  /** A guarded call pattern ending in a quote and a slash contains a match of
      the bare quote-slash pattern where its quote is. */
  lemma CallContainsQuoted(p: Rule, t: string, i: nat)
    requires p.reach.QuotedSlash? && p.guarded && i < |t|
    ensures MatchLen(p, t[i..]).Some? ==>
              i + 1 + |p.reach.word| < |t| && MatchLen(JsQuoted, t[i + 1 + |p.reach.word|..]).Some?
  {
    var u := t[i..];
    var m := 1 + |p.reach.word|;
    if MatchLen(p, u).Some? {
      var v := t[i + m..];
      assert v == u[m..];
      assert v[0] == u[1..][m - 1];
      assert v[1..][..1] == "/" by {
        assert v[1] == u[1..][m];
      }
      assert v[2..] == u[1 + (m + 1)..];
    }
  }

  /** Text with no `['"]\/(?!http)` has no `fetch(` or registration call on a
      root-relative path either. */
  lemma QuotedCleanCoversCalls(t: string)
    requires Clean(JsQuoted, t)
    ensures Clean(JsFetch, t) && Clean(JsSwRegister, t)
  {
    forall i | 0 <= i < |t| ensures MatchLen(JsFetch, t[i..]).None? {
      CallContainsQuoted(JsFetch, t, i);
    }
    forall i | 0 <= i < |t| ensures MatchLen(JsSwRegister, t[i..]).None? {
      CallContainsQuoted(JsSwRegister, t, i);
    }
  }

  /** The attribute passes of the HTML rewriter leave no `href="/` or `src="/`. */
  lemma HtmlAttributePasses(s: string)
    ensures Clean(HrefRoot, ReplaceAll(SrcRoot, ReplaceAll(HrefRoot, s)))
    ensures Clean(SrcRoot, ReplaceAll(SrcRoot, ReplaceAll(HrefRoot, s)))
  {
    HrefRootAvoidsItself();
    SrcRootAvoidsItself();
    SrcRootAvoidsHrefRoot();
    TwoPasses(HrefRoot, SrcRoot, s);
  }

  /** The three stylesheet passes leave nothing for any of them to rewrite. */
  lemma CssPasses(s: string)
    ensures Clean(CssUrl, ReplaceAll(CssFontSrc, ReplaceAll(CssImport, ReplaceAll(CssUrl, s))))
    ensures Clean(CssImport, ReplaceAll(CssFontSrc, ReplaceAll(CssImport, ReplaceAll(CssUrl, s))))
    ensures Clean(CssFontSrc, ReplaceAll(CssFontSrc, ReplaceAll(CssImport, ReplaceAll(CssUrl, s))))
  {
    CssUrlAvoidsItself();
    CssImportAvoidsItself();
    CssFontSrcAvoidsItself();
    CssImportAvoidsCssUrl();
    CssFontSrcAvoidsCssUrl();
    CssFontSrcAvoidsCssImport();
    ThreePasses(CssUrl, CssImport, CssFontSrc, s);
  }

  /** The two call passes of the script rewriter leave no call to rewrite. */
  lemma JsCallPasses(s: string)
    ensures Clean(JsFetch, ReplaceAll(JsSwRegister, ReplaceAll(JsFetch, s)))
    ensures Clean(JsSwRegister, ReplaceAll(JsSwRegister, ReplaceAll(JsFetch, s)))
  {
    JsFetchAvoidsItself();
    JsSwRegisterAvoidsItself();
    JsSwRegisterAvoidsJsFetch();
    TwoPasses(JsFetch, JsSwRegister, s);
  }

  /** The quoted-path pass of the service worker leaves no quoted root-relative
      path, and so no call on one either. */
  lemma JsQuotedPass(s: string)
    ensures Clean(JsQuoted, ReplaceAll(JsQuoted, s))
    ensures Clean(JsFetch, ReplaceAll(JsQuoted, s)) && Clean(JsSwRegister, ReplaceAll(JsQuoted, s))
  {
    JsQuotedAvoidsItself();
    NoResidual(JsQuoted, s);
    QuotedCleanCoversCalls(ReplaceAll(JsQuoted, s));
  }

  /** The registration pass of the HTML rewriter leaves no single-quoted root registration. */
  lemma HtmlRegistrationPass(s: string)
    ensures Clean(SwRegisterHtml, ReplaceAll(SwRegisterHtml, s))
  {
    SwRegisterHtmlAvoidsItself();
    NoResidual(SwRegisterHtml, s);
  }
}

=== FILE: rules.dfy ===
/** The fixed regular expressions of the path rewriter, each hand-coded as a
    matcher on the text that remains from the current scan position, together
    with the replacement text each one substitutes. */
module Rules {
  import opened Wrappers
  import opened Text

  /** The characters a fixed rule's match can start with. */
  datatype Trigger = Char(c: char) | AnyQuote

  /** What a fixed rule requires after its first character, up to and including its last one. */
  datatype Reach =
      /** a fixed text */
    | Exact(word: string)
      /** a fixed text, then `['"]`, then `/` */
    | QuotedSlash(word: string)
      /** a fixed text, then `\s+`, then a fixed text, then `['"]`, then `/` */
    | SpacedQuotedSlash(head: string, word: string)

  /** One global `String.replace` of fix-github-paths.js with a fixed replacement
      text: a pattern made of one trigger character and a reach, optionally
      followed by the `(?!http)` look-ahead. */
  datatype Rule = Rule(trigger: Trigger, reach: Reach, guarded: bool, replacement: string)

  /** The registration call after its first letter, which is the rules' trigger. */
  const SwRegisterCallTail := "avigator.serviceWorker.register("
  const SwRegisterCall := "n" + SwRegisterCallTail
  const SwScript := "service-worker.js"

  /** `/href="\//g` replaced by `href="./` */
  const HrefRoot := Rule(Char('h'), Exact("ref=\"/"), false, "href=\"./")
  /** `/src="\//g` replaced by `src="./` */
  const SrcRoot := Rule(Char('s'), Exact("rc=\"/"), false, "src=\"./")
  /** `/navigator\.serviceWorker\.register\('\/service-worker\.js'/g` replaced by the same call on `'./service-worker.js'` */
  const SwRegisterHtml := Rule(Char('n'), Exact(SwRegisterCallTail + "'/" + SwScript + "'"), false,
                                SwRegisterCall + "'./" + SwScript + "'")
  /** `/url\(\/(?!http)/g` replaced by `url(./` */
  const CssUrl := Rule(Char('u'), Exact("rl(/"), true, "url(./")
  /** `/@import\s+['"]\/(?!http)/g` replaced by `@import './` */
  const CssImport := Rule(Char('@'), SpacedQuotedSlash("import", ""), true, "@import './")
  /** `/src:\s+url\(['"]\/(?!http)/g` replaced by `src: url('./` */
  const CssFontSrc := Rule(Char('s'), SpacedQuotedSlash("rc:", "url("), true, "src: url('./")
  /** `/fetch\(['"]\/(?!http)/g` replaced by `fetch('./` */
  const JsFetch := Rule(Char('f'), QuotedSlash("etch("), true, "fetch('./")
  /** `/navigator\.serviceWorker\.register\(['"]\/(?!http)/g` replaced by the same call and `'./` */
  const JsSwRegister := Rule(Char('n'), QuotedSlash(SwRegisterCallTail), true, SwRegisterCall + "'./")
  /** `/['"]\/(?!http)/g` replaced by `'./` */
  const JsQuoted := Rule(AnyQuote, Exact("/"), true, "'./")

  /** The characters a match of `rule` can start with. */
  predicate IsTrigger(rule: Rule, c: char) {
    match rule.trigger
    case Char(d) => c == d
    case AnyQuote => IsQuote(c)
  }

  /** `word`, then a quote, then a slash, at the start of `t`. */
  function QuoteSlashAfter(t: string, word: string): (r: Option<nat>)
    ensures r.Some? ==> r.value == |word| + 2 <= |t|
  {
    if StartsWith(t, word) && |word| + 2 <= |t| && IsQuote(t[|word|]) && t[|word| + 1] == '/'
    then Some(|word| + 2) else None
  }

  /** Length of the reach at the start of `t`, if `t` has one. The `\s+` run is
      greedy; it never needs to give characters back, because what follows it
      (a letter or a quote) is never white space. */
  function Reaches(reach: Reach, t: string): (r: Option<nat>)
    ensures r.Some? ==> 1 <= r.value <= |t|
  {
    match reach
    case Exact(w) => if |w| > 0 && StartsWith(t, w) then Some(|w|) else None
    case QuotedSlash(w) => QuoteSlashAfter(t, w)
    case SpacedQuotedSlash(h, w) => SpacedReach(h, w, t)
  }

  /** `head`, then `\s+`, then `word`, a quote and a slash, at the start of `t`. */
  function SpacedReach(head: string, word: string, t: string): (r: Option<nat>)
    ensures r.Some? ==> 1 <= r.value <= |t|
  {
    if StartsWith(t, head) then
      var k := SpaceRun(t[|head|..]);
      if k == 0 then None
      else match QuoteSlashAfter(t[|head| + k..], word)
        case Some(n) => Some(|head| + k + n)
        case None => None
    else None
  }

  /** The characters a reach can consist of. */
  predicate InAlphabet(reach: Reach, c: char) {
    match reach
    case Exact(w) => c in w
    case QuotedSlash(w) => c in w || IsQuote(c) || c == '/'
    case SpacedQuotedSlash(h, w) => c in h || IsSpace(c) || c in w || IsQuote(c) || c == '/'
  }

  lemma ReachAlphabet(reach: Reach, t: string)
    requires Reaches(reach, t).Some?
    ensures forall j :: 0 <= j < Reaches(reach, t).value ==> InAlphabet(reach, t[j])
  {
    match reach
    case Exact(w) =>
      assert forall j :: 0 <= j < |w| ==> t[j] == t[..|w|][j];
    case QuotedSlash(w) =>
      assert forall j :: 0 <= j < |w| ==> t[j] == t[..|w|][j];
    case SpacedQuotedSlash(h, w) =>
      var k := SpaceRun(t[|h|..]);
      var rest := t[|h| + k..];
      assert forall j :: 0 <= j < |h| ==> t[j] == t[..|h|][j];
      assert forall j :: |h| <= j < |h| + k ==> t[j] == t[|h|..][j - |h|];
      assert forall j :: 0 <= j < |w| ==> rest[j] == rest[..|w|][j];
      assert forall j :: |h| + k <= j < |h| + k + |w| + 2 ==> t[j] == rest[j - |h| - k];
  }

  /** The quote-slash test reads only its `|word| + 2` characters. */
  lemma QuoteSlashPrefixOnly(t: string, u: string, word: string)
    requires QuoteSlashAfter(t, word).Some?
    requires |word| + 2 <= |u| && u[..|word| + 2] == t[..|word| + 2]
    ensures QuoteSlashAfter(u, word) == QuoteSlashAfter(t, word)
  {
    var m := |word| + 2;
    assert u[..|word|] == u[..m][..|word|];
    assert t[..|word|] == t[..m][..|word|];
    assert u[|word|] == u[..m][|word|] && u[|word| + 1] == u[..m][|word| + 1];
    assert t[|word|] == t[..m][|word|] && t[|word| + 1] == t[..m][|word| + 1];
  }

  /** Two texts that agree on their first `n` characters agree on every window inside them. */
  lemma SharedWindow(t: string, u: string, n: nat, a: nat, b: nat)
    requires a <= b <= n <= |t| && n <= |u| && u[..n] == t[..n]
    ensures u[a..][..b - a] == t[a..][..b - a]
  {
    assert u[a..][..b - a] == u[..n][a..b];
    assert t[a..][..b - a] == t[..n][a..b];
  }

  /** The parts of a spaced reach: the head, a white-space run of `k > 0`
      characters, and the quoted slash. */
  lemma SpacedParts(h: string, w: string, t: string)
    requires SpacedReach(h, w, t).Some?
    ensures StartsWith(t, h) && 0 < SpaceRun(t[|h|..])
    ensures QuoteSlashAfter(t[|h| + SpaceRun(t[|h|..])..], w).Some?
    ensures SpacedReach(h, w, t).value == |h| + SpaceRun(t[|h|..]) + |w| + 2
  {
  }

  lemma SpacedFromParts(h: string, w: string, u: string, k: nat)
    requires StartsWith(u, h) && 0 < k && SpaceRun(u[|h|..]) == k
    requires QuoteSlashAfter(u[|h| + k..], w).Some?
    ensures SpacedReach(h, w, u) == Some(|h| + k + |w| + 2)
  {
  }

  lemma SpacedPrefixOnly(h: string, w: string, t: string, u: string, n: nat)
    requires SpacedReach(h, w, t) == Some(n)
    requires n <= |u| && u[..n] == t[..n]
    ensures SpacedReach(h, w, u) == Some(n)
  {
    SpacedParts(h, w, t);
    var k := SpaceRun(t[|h|..]);
    SpacedPartsShared(h, w, t, u, n, k);
    SpacedFromParts(h, w, u, k);
  }

  /** The three parts of a spaced reach inside the shared prefix of two texts
      are found in both. */
  lemma SpacedPartsShared(h: string, w: string, t: string, u: string, n: nat, k: nat)
    requires StartsWith(t, h) && SpaceRun(t[|h|..]) == k
    requires QuoteSlashAfter(t[|h| + k..], w).Some?
    requires n == |h| + k + |w| + 2 <= |t| && n <= |u| && u[..n] == t[..n]
    ensures StartsWith(u, h) && SpaceRun(u[|h|..]) == k
    ensures QuoteSlashAfter(u[|h| + k..], w).Some?
  {
    HeadShared(t, u, n, h);
    RunShared(t, u, n, |h|);
    QuoteSlashShared(t, u, n, |h| + k, w);
  }

  /** A head inside the shared prefix of two texts starts both. */
  lemma HeadShared(t: string, u: string, n: nat, h: string)
    requires StartsWith(t, h) && |h| <= n <= |t| && n <= |u| && u[..n] == t[..n]
    ensures StartsWith(u, h)
  {
    SharedWindow(t, u, n, 0, |h|);
    assert u[..|h|] == t[..|h|];
  }

  /** A white-space run that ends inside the shared prefix is the same in both texts. */
  lemma RunShared(t: string, u: string, n: nat, a: nat)
    requires a <= n <= |t| && n <= |u| && u[..n] == t[..n]
    requires SpaceRun(t[a..]) < n - a
    ensures SpaceRun(u[a..]) == SpaceRun(t[a..])
  {
    SharedWindow(t, u, n, a, n);
    SpaceRunPrefix(t[a..], u[a..], n - a);
  }

  /** A quoted slash inside the shared prefix is found in both texts. */
  lemma QuoteSlashShared(t: string, u: string, n: nat, a: nat, w: string)
    requires a + |w| + 2 <= n <= |t| && n <= |u| && u[..n] == t[..n]
    requires QuoteSlashAfter(t[a..], w).Some?
    ensures QuoteSlashAfter(u[a..], w).Some?
  {
    SharedWindow(t, u, n, a, n);
    assert u[a..][..|w| + 2] == t[a..][..|w| + 2] by {
      assert u[a..][..|w| + 2] == u[a..][..n - a][..|w| + 2];
      assert t[a..][..|w| + 2] == t[a..][..n - a][..|w| + 2];
    }
    QuoteSlashPrefixOnly(t[a..], u[a..], w);
  }

  /** A reach is decided by the characters it covers: nothing after it matters. */
  lemma ReachPrefixOnly(reach: Reach, t: string, u: string)
    requires Reaches(reach, t).Some?
    requires Reaches(reach, t).value <= |u|
    requires u[..Reaches(reach, t).value] == t[..Reaches(reach, t).value]
    ensures Reaches(reach, u) == Reaches(reach, t)
  {
    match reach
    case Exact(w) =>
    case QuotedSlash(w) =>
      QuoteSlashPrefixOnly(t, u, w);
    case SpacedQuotedSlash(h, w) =>
      SpacedPrefixOnly(h, w, t, u, Reaches(reach, t).value);
  }

  /** Length of the match of `rule` at the start of `t`, if there is one; this is
      the regular expression tried at one scan position. */
  function MatchLen(rule: Rule, t: string): (r: Option<nat>)
    ensures r.Some? ==> 1 <= r.value <= |t|
    ensures r.Some? ==> IsTrigger(rule, t[0])
  {
    if |t| > 0 && IsTrigger(rule, t[0]) then
      match Reaches(rule.reach, t[1..])
      case Some(n) => if rule.guarded && StartsWith(t[1 + n..], "http") then None else Some(1 + n)
      case None => None
    else None
  }

  /** A trigger, a reach over the rest of `m` and, for a guarded rule, no
      `http` after it: `m` is a match. */
  lemma ReachMatch(rule: Rule, m: string, rest: string)
    requires 0 < |m| && IsTrigger(rule, m[0])
    requires Reaches(rule.reach, m[1..] + rest) == Some(|m| - 1)
    requires !(rule.guarded && StartsWith(rest, "http"))
    ensures MatchLen(rule, m + rest) == Some(|m|)
  {
    assert (m + rest)[1..] == m[1..] + rest;
    assert (m + rest)[|m|..] == rest;
  }
}

=== FILE: text.dfy ===
/** String predicates with the meaning of the JavaScript `String` methods and
    regular-expression classes the path rewriter relies on. */
module Text {

  /** `s.startsWith(prefix)` */
  predicate StartsWith(s: string, prefix: string) {
    |prefix| <= |s| && s[..|prefix|] == prefix
  }

  /** `s.endsWith(suffix)` */
  predicate EndsWith(s: string, suffix: string) {
    |suffix| <= |s| && s[|s| - |suffix|..] == suffix
  }

  /** `s.includes(sub)` */
  predicate Contains(s: string, sub: string) {
    exists i :: 0 <= i <= |s| - |sub| && StartsWith(s[i..], sub)
  }

  /** The regular-expression class `\s`: the JavaScript white-space and line-terminator characters. */
  const Whitespace: set<char> := {
    '\t', '\n', '\U{000B}', '\U{000C}', '\r', ' ', '\U{00A0}', '\U{1680}',
    '\U{2000}', '\U{2001}', '\U{2002}', '\U{2003}', '\U{2004}', '\U{2005}',
    '\U{2006}', '\U{2007}', '\U{2008}', '\U{2009}', '\U{200A}',
    '\U{2028}', '\U{2029}', '\U{202F}', '\U{205F}', '\U{3000}', '\U{FEFF}'
  }

  predicate IsSpace(c: char) {
    c in Whitespace
  }

  /** The regular-expression class `['"]`. */
  predicate IsQuote(c: char) {
    c == '\'' || c == '"'
  }

  /** Length of the longest white-space prefix of `s`: what a greedy `\s*` consumes. */
  function SpaceRun(s: string): (n: nat)
    ensures n <= |s|
    ensures forall i :: 0 <= i < n ==> IsSpace(s[i])
    ensures n < |s| ==> !IsSpace(s[n])
  {
    if |s| > 0 && IsSpace(s[0]) then 1 + SpaceRun(s[1..]) else 0
  }

  /** The greedy run is determined by its end: any white-space prefix that stops
      at a non-space character is the run. */
  lemma SpaceRunUnique(s: string, k: nat)
    requires k < |s|
    requires forall i :: 0 <= i < k ==> IsSpace(s[i])
    requires !IsSpace(s[k])
    ensures SpaceRun(s) == k
  {
  }

  /** Text after the run cannot change the run once it has ended. */
  lemma SpaceRunPrefix(s: string, u: string, n: nat)
    requires SpaceRun(s) < n <= |s| && n <= |u|
    requires u[..n] == s[..n]
    ensures SpaceRun(u) == SpaceRun(s)
  {
    var k := SpaceRun(s);
    assert forall i :: 0 <= i <= k ==> u[i] == s[..n][i];
    SpaceRunUnique(u, k);
  }

  /** A prefix test decided by one mismatching position. */
  lemma MismatchNotPrefix(s: string, prefix: string, j: nat)
    requires j < |prefix| && j < |s|
    requires s[j] != prefix[j]
    ensures !StartsWith(s, prefix)
  {
    if |prefix| <= |s| {
      assert s[..|prefix|][j] != prefix[j];
    }
  }

  /** `startsWith` looks only at the first `|prefix|` characters. */
  lemma StartsWithAppend(a: string, b: string, prefix: string)
    requires |prefix| <= |a|
    ensures StartsWith(a + b, prefix) <==> StartsWith(a, prefix)
  {
    assert (a + b)[..|prefix|] == a[..|prefix|];
  }
}

=== FILE: wrappers.dfy ===
/** Option and Result datatypes used across the model. */
module Wrappers {

  /** An optional value: `None` stands for JavaScript's `undefined`/absent. */
  datatype Option<+T> = None | Some(value: T)

  /** The outcome of a step that may throw: `Failure` carries the error that aborts the run. */
  datatype Result<+T, +E> = Success(value: T) | Failure(error: E)
}
